=== FILE: README.md ===
# Task list and chat state, modelled in Dafny

This project models the state handling of a personal task-list application with a
chat assistant. The assistant answers through a language model that can call task tools.
The model covers both halves of the application:

- **Client.** The dashboard page keeps the task list and patches it after each gateway call. It also derives the visible list: search, the "completed" filter, a stable sort, and the "remaining" counter. The chat window keeps a message log, the conversation id, a loading flag and an error banner. The composer and the form components guard their submits: the quick-task input, both edit dialogs, the older add form, and the sign-up page.
- **Server.** The task routes work on a task table held as a map from id to task. The chat tools return a result record. The chat endpoint finds or creates the conversation, rebuilds the model history, retries once, extracts the tool calls and wraps errors. The CORS origin list is also parsed here.

Gateway calls become an `Outcome<T>`, which is either the value or the error the promise
rejected with. Each client handler is split at its `await` into a "before" function and a
"settle" function, or it is one function taking the outcome. The language model is a
function-valued parameter, and the access check is a boolean parameter.
The chat endpoint takes a `Slicing` switch. `AsWritten` reads the new turn's tool calls
from the stored history's length, as the code does. `Corrected` reads them from the
restarted session's start after a retry (see "## Findings").
Timestamps are integers.

Modules, in dependency order:

- `Wrappers` holds `Option` and `Result`.
- `Seqs` is filtering over sequences.
- `Text` covers the JavaScript `trim` and Python `strip` whitespace tables, ASCII lower-casing, `includes`, comma split and join, decimal rendering, and UTF-16 length.
- `Domain` holds the task record and the gateway error.
- `Dashboard` and `Projection` model the dashboard page.
- `Composer` and `ChatWindow` model the chat client.
- `TaskInput`, `EditTaskModal`, `AddTaskForm`, `LegacyEditTaskModal` and `Signup` are the form components.
- `TaskStore` and `TasksRouter` model the task routes.
- `McpTools` models the chat tools.
- `ChatPipeline` models the chat endpoint.
- `Config` models the CORS origin list.
- `Sync` links the client list to the server table.

## Model

| member | source | states |
|---|---|---|
| Dashboard.FetchTasks | frontend/src/app/dashboard/page.tsx:48-59 | With no user nothing happens. Otherwise the list is fetched for that user. Success replaces the whole list with the server's list, failure keeps it, and `loading` is false after either. |
| Dashboard.AddTask | frontend/src/app/dashboard/page.tsx:61-70 | Success puts the server's task in front of the unchanged old list. Failure keeps the list and rethrows the error. With no user nothing happens. |
| Dashboard.ToggleCompleteTask | frontend/src/app/dashboard/page.tsx:72-80 | Success replaces every entry with that id by the server's task, and every other entry, the order and the length stay the same. Failure keeps the list and is swallowed. |
| Dashboard.EditTaskSave | frontend/src/app/dashboard/page.tsx:82-91 | The call carries the id, title and description. Success replaces the entries with that id, as toggle does. Failure keeps the list and rethrows. |
| Dashboard.DeleteTask | frontend/src/app/dashboard/page.tsx:93-101 | Success leaves no entry with that id, keeps every other entry, and adds nothing. Failure keeps the list and is swallowed. |
| Dashboard.ReplaceById | frontend/src/app/dashboard/page.tsx:76 | The list keeps its length. Each entry with the id becomes the new task, and every other entry stays in place. |
| Dashboard.RemoveById | frontend/src/app/dashboard/page.tsx:97 | No survivor has the id, every survivor was in the list, and every entry with another id survives. |
| Dashboard.RemoveByIdConcat | frontend/src/app/dashboard/page.tsx:97 | Removing an id distributes over concatenation, so the survivors keep their relative order. |
| Dashboard.RemoveByIdAbsentAndIdempotent | frontend/src/app/dashboard/page.tsx:97 | Removing an id that is not listed changes nothing, and removing twice is the same as removing once. |
| Dashboard.RemoveAfterReplace | frontend/src/app/dashboard/page.tsx:82-101 | An edit to a task is invisible once that task is deleted. |
| Dashboard.ReplaceKeepsIds | frontend/src/app/dashboard/page.tsx:72-91 | Replacing entries by a task with the same id keeps the id at every position, so the list's ids are unchanged. |
| Projection.MatchesSearch | frontend/src/app/dashboard/page.tsx:104 | A task matches exactly when the lower-cased query occurs somewhere in the lower-cased title. The empty query matches every task. |
| Projection.Keeps | frontend/src/app/dashboard/page.tsx:103-106 | A task is kept exactly when it matches the search and, under the "completed" filter, is completed. |
| Projection.Compare | frontend/src/app/dashboard/page.tsx:107-112 | A task is shown first exactly when it is incomplete and the other completed, or both are in the same group and it is newer. The comparator is 0 exactly when both the flags and the creation times agree. |
| Projection.Insert | frontend/src/app/dashboard/page.tsx:107-112 | One insertion step of the sort. It adds exactly one element, is a permutation of the input plus `x`, and keeps a sorted list sorted. |
| Projection.Sort | frontend/src/app/dashboard/page.tsx:107-112 | The result is a permutation of the input and is sorted by the comparator. |
| Projection.CompareIsTotalPreorder | frontend/src/app/dashboard/page.tsx:107-112 | The comparator is antisymmetric. It compares equal exactly when the completion flags and creation times agree, and `<= 0` is transitive. |
| Projection.SortIsStable | frontend/src/app/dashboard/page.tsx:107-112 | For every key, the tasks with that key appear in the sorted list in their input order, as a stable sort requires. |
| Projection.SortedUnique | frontend/src/app/dashboard/page.tsx:107-112 | Two sorted lists with the same per-key runs are equal, so the stable sort's result is unique. |
| Projection.Project | frontend/src/app/dashboard/page.tsx:103-112 | Every shown task is in the list and passes the search and filter test. Every task that passes is shown. Nothing is duplicated beyond the input, and the result is sorted. |
| Projection.ProjectOrder | frontend/src/app/dashboard/page.tsx:107-112 | Incomplete tasks come before completed ones, creation times do not increase within a group, and ties keep their input order. |
| Projection.ProjectEmptySearch | frontend/src/app/dashboard/page.tsx:103-106 | With an empty search, "completed" shows exactly the completed tasks and any other filter shows every task. |
| Projection.TasksRemaining | frontend/src/app/dashboard/page.tsx:122 | The counter is the number of incomplete tasks in the whole list, never more than its length. |
| Projection.RemainingIsIncompletePrefix | frontend/src/app/dashboard/page.tsx:103-122 | In the unfiltered view, the first `TasksRemaining` entries are exactly the incomplete tasks. So the counter ignores the search and the filter. |
| Text.Trim | frontend/src/components/ChatBot/Composer.tsx:27 | The result is the part of the input between an all-whitespace prefix and an all-whitespace suffix. Neither of its ends is whitespace. It is empty exactly when the input is all whitespace. |
| Text.IncludesIffOccurs | frontend/src/app/dashboard/page.tsx:104 | `includes` holds exactly when the needle occurs at some position. |
| Text.Lower | frontend/src/app/dashboard/page.tsx:104 | The length is kept, no ASCII capital is left, each capital becomes its small letter, and every other character is unchanged. |
| Text.Split | backend/app/config.py:34 | There is one piece more than there are separators, and no piece contains the separator. |
| Text.Utf16Length | frontend/src/app/signup/page.tsx:35 | The length lies between the character count and twice it. It equals the character count exactly when every character is in the Basic Multilingual Plane, and twice it exactly when none is. |
| Composer.HandleSend | frontend/src/components/ChatBot/Composer.tsx:26-37 | A message goes out exactly when the trimmed text is non-blank and the composer is enabled. What goes out is the trimmed text, and the box is then cleared. Otherwise the text is kept. |
| Composer.HandleKeyDown | frontend/src/components/ChatBot/Composer.tsx:39-44 | Enter without Shift takes the send path. Any other key, Shift+Enter included, sends nothing and keeps the text. |
| Composer.ButtonEnabledIffSends | frontend/src/components/ChatBot/Composer.tsx:73 | The button is enabled exactly when pressing it sends. What it sends is non-empty and has no whitespace at either end. |
| Composer.SendButtonDisabled | frontend/src/components/ChatBot/Composer.tsx:73 | The button is disabled exactly when the composer is disabled or the text is all whitespace. |
| Composer.EnterSendsIffEnabled | frontend/src/components/ChatBot/Composer.tsx:39-44 | Enter without Shift sends exactly when the send button is enabled. Shift+Enter never sends and keeps the text. |
| ChatWindow.Initial | frontend/src/components/ChatBot/ChatWindow.tsx:25-34 | The window opens with one assistant greeting, no conversation id, not loading, and no error. |
| ChatWindow.BeginSend | frontend/src/components/ChatBot/ChatWindow.tsx:44-55 | The user's message is appended at once, loading starts, the error is cleared, and the request carries the conversation id held now. |
| ChatWindow.ErrorText | frontend/src/components/ChatBot/ChatWindow.tsx:71 | The banner shows the server's non-empty `detail`, otherwise the default text. |
| ChatWindow.CompleteSend | frontend/src/components/ChatBot/ChatWindow.tsx:55-83 | Exactly one assistant message is appended: the reply on success, the apology on failure. Earlier messages are untouched and loading ends. The response's id is adopted only if the request went out without one. Failure sets the banner. |
| ChatWindow.SendAppendsPair | frontend/src/components/ChatBot/ChatWindow.tsx:42-84 | A completed send adds the user's message and then the answer. A held id is never replaced, and success leaves no error. |
| ChatWindow.ExchangeAt | frontend/src/components/ChatBot/ChatWindow.tsx:50-80 | In the expected log, turn `i` owns positions `2i` (the user's text) and `2i+1` (the answer). |
| ChatWindow.ReplayLog | frontend/src/components/ChatBot/ChatWindow.tsx:42-84 | Over any series of sends, the log is the earlier log followed by user/answer pairs in turn order, and a held conversation id survives. |
| ChatWindow.ReplayFromInitial | frontend/src/components/ChatBot/ChatWindow.tsx:25-84 | From a freshly opened window, the log is the greeting followed by the user/answer pair of each turn, so it holds one plus twice the turns. |
| ChatWindow.QuickAction | frontend/src/components/ChatBot/ChatWindow.tsx:86-119 | A quick action takes the same send path with its canned text, and does nothing while loading. |
| ChatWindow.NoSendWhileLoading | frontend/src/components/ChatBot/ChatWindow.tsx:119-158 | While a send is in flight neither the composer nor a quick action appends or sends. |
| ChatWindow.ComposerSendsTrimmed | frontend/src/components/ChatBot/ChatWindow.tsx:158 | When idle, the window sends exactly when the text is non-blank, and it sends the trimmed text. |
| TaskInput.Submit | frontend/src/components/dashboard/TaskInput.tsx:22-28 | A blank title or a submit in flight is ignored. Otherwise loading starts and `onAdd` gets the untrimmed title and an empty description. |
| TaskInput.Settle | frontend/src/components/dashboard/TaskInput.tsx:29-35 | Success clears the title and collapses the input. Failure keeps both. Loading is false after either. |
| TaskInput.Focus | frontend/src/components/dashboard/TaskInput.tsx:54 | Focusing expands the input and changes nothing else. |
| TaskInput.Collapse | frontend/src/components/dashboard/TaskInput.tsx:63 | Cancel collapses the input and keeps the title. |
| TaskInput.CreateDisabled | frontend/src/components/dashboard/TaskInput.tsx:68-73 | The Create button is disabled exactly when a submit is in flight or the title is all whitespace. |
| TaskInput.SubmitGuards | frontend/src/components/dashboard/TaskInput.tsx:22-72 | The Create button is enabled exactly when a submit is issued. A second submit in flight is blocked. A failed submit leaves the form as it was. |
| EditTaskModal.SyncFields | frontend/src/components/dashboard/EditTaskModal.tsx:28-33 | A task loads its title, and its description or `''` for none. A null task changes nothing. |
| EditTaskModal.Submit | frontend/src/components/dashboard/EditTaskModal.tsx:35-41 | No task, a blank title or a save in flight is ignored. Otherwise saving starts with the task's id and the untrimmed fields. |
| EditTaskModal.Settle | frontend/src/components/dashboard/EditTaskModal.tsx:41-47 | `onClose` runs exactly on success. The fields are kept and `isSaving` ends either way. |
| EditTaskModal.CloseOnlyAfterSuccess | frontend/src/components/dashboard/EditTaskModal.tsx:35-48 | A second submit is blocked while saving. The dialog closes exactly when the save succeeds. A failed save leaves the state as before the submit. |
| EditTaskModal.SavesLoadedFields | frontend/src/components/dashboard/EditTaskModal.tsx:28-41 | Opened on a task with a non-blank title and submitted unchanged, the dialog saves that task's id, title, and description or `''`. |
| AddTaskForm.Open | frontend/src/components/AddTaskForm.tsx:37 | The button opens the form and keeps the fields. |
| AddTaskForm.Submit | frontend/src/components/AddTaskForm.tsx:16-23 | Only a blank title is refused. Otherwise loading starts and `onAdd` gets the fields as typed. |
| AddTaskForm.Settle | frontend/src/components/AddTaskForm.tsx:23-31 | Success clears both fields and closes the form. Failure keeps them and stays open. Loading ends either way. |
| AddTaskForm.Cancel | frontend/src/components/AddTaskForm.tsx:99-103 | Cancel closes the form and clears both fields. |
| AddTaskForm.HandlerHasNoInFlightGuard | frontend/src/components/AddTaskForm.tsx:16-82 | The handler submits again while loading, and only the disabled button stops it. A failure restores the state. |
| LegacyEditTaskModal.Render | frontend/src/components/EditTaskModal.tsx:24-89 | Nothing is rendered exactly when the task is null. The form shows the fields, and its button is disabled while loading. |
| LegacyEditTaskModal.SyncFields | frontend/src/components/EditTaskModal.tsx:17-22 | A task loads its title, and its description or `''` for none. A null task changes nothing. |
| LegacyEditTaskModal.Submit | frontend/src/components/EditTaskModal.tsx:26-33 | Only a blank title is refused. Otherwise loading starts and the save gets the task's id and the fields. |
| LegacyEditTaskModal.SubmitViaButton | frontend/src/components/EditTaskModal.tsx:89 | A click on the disabled button does nothing. Otherwise it is the handler. |
| LegacyEditTaskModal.Settle | frontend/src/components/EditTaskModal.tsx:33-39 | `onClose` runs exactly on success. The fields are kept and loading ends. |
| LegacyEditTaskModal.ResubmitBlockedOnlyByButton | frontend/src/components/EditTaskModal.tsx:26-89 | The handler itself accepts a second submit while loading, and the button refuses it. A failure leaves the dialog open with its state restored. |
| LegacyEditTaskModal.SavesLoadedFields | frontend/src/components/EditTaskModal.tsx:17-33 | Opened on a task with a non-blank title and submitted unchanged, the dialog saves that task's id, title, and description or `''`. |
| Signup.Submit | frontend/src/app/signup/page.tsx:25-47 | Mismatched passwords give the mismatch error, and a short password gives the length error. Only a form passing both reaches `signup`, without the confirmation, with loading on and the error cleared. |
| Signup.Settle | frontend/src/app/signup/page.tsx:48-53 | Success goes to `/dashboard`. Failure shows the error's message, or the default for an empty one. Loading ends. |
| Signup.ValidationOrder | frontend/src/app/signup/page.tsx:27-38 | `signup` is called exactly when both checks pass. A mismatch is reported even when the password is also short. A refused submit leaves a non-empty error and does not start loading. |
| Signup.LengthBoundary | frontend/src/app/signup/page.tsx:35 | Five characters are refused and six accepted. A character outside the Basic Multilingual Plane counts as two. |
| TaskStore.Insert | backend/app/routers/tasks.py:59-67 | The new row gets a fresh id, the path user, the body's title and description, `completed` false, and both timestamps from the clock. Nothing else changes. |
| TaskStore.Lookup | backend/app/routers/tasks.py:93-95 | A task is found exactly when it exists and belongs to the user. |
| TaskStore.Patch | backend/app/routers/tasks.py:136-143 | Each field the update carries is assigned, every other field is kept, and `updated_at` is refreshed. |
| TaskStore.Flip | backend/app/routers/tasks.py:211-212 | `completed` is inverted, `updated_at` is refreshed, and nothing else changes. |
| TaskStore.Remove | backend/app/routers/tasks.py:178-179 | Exactly the addressed row disappears, and the others are unchanged. |
| TaskStore.InsertNewest | backend/app/routers/tasks.py:32 | Inserting at the first place not newer than the row keeps the list newest-first. The rows around it keep their order. |
| TaskStore.List | backend/app/routers/tasks.py:32 | The listing holds exactly the user's rows, and only the rows with the requested completion flag when one is given. Each row appears once, newest first. |
| TasksRouter.GetTasks | backend/app/routers/tasks.py:13-35 | A refused access check gives the rejection. Otherwise the request succeeds, and the answer is a listing of the path user's tasks. |
| TasksRouter.CreateTask | backend/app/routers/tasks.py:38-69 | The stored row has a fresh id, the path user, the body's fields and `completed` false, and nothing else changes. A refused check stores nothing. |
| TasksRouter.GetTask | backend/app/routers/tasks.py:72-101 | An absent or foreign task gives 404 "Task not found". Otherwise the stored task is returned. |
| TasksRouter.GetTaskIffListed | backend/app/routers/tasks.py:72-101 | A task can be fetched exactly when the listing of the user's tasks shows it, and it is fetched as listed. |
| TasksRouter.UpdateTask | backend/app/routers/tasks.py:104-149 | 404 leaves the table unchanged. Otherwise only the non-None fields change and `updated_at` is refreshed. |
| TasksRouter.DeleteTask | backend/app/routers/tasks.py:152-179 | 404 leaves the table unchanged. Otherwise exactly that row is removed. |
| TasksRouter.ToggleTask | backend/app/routers/tasks.py:182-218 | 404 leaves the table unchanged. Otherwise only `completed` flips and `updated_at` is refreshed. |
| TasksRouter.ToggleTwice | backend/app/routers/tasks.py:211-212 | Toggling twice restores the task, except for `updated_at`. |
| TasksRouter.EmptyUpdateTouchesOnlyTimestamp | backend/app/routers/tasks.py:136-143 | An update with an empty body changes only `updated_at`. |
| TasksRouter.OtherUsersUntouched | backend/app/routers/tasks.py:127-216 | Update, toggle and delete never change a row owned by another user. |
| McpTools.Fail | backend/app/mcp_tools.py:71-72 | A failed result has `success` false, no data, no message, and the error text. |
| McpTools.ToDict | backend/app/mcp_tools.py:25-31 | The dictionary has exactly the keys success, data, message and error, each holding its field. |
| McpTools.DictRoundTrip | backend/app/mcp_tools.py:25-31 | Reading the dictionary back gives the original result. |
| McpTools.GetContext | backend/app/mcp_tools.py:36-41 | It fails with "Context not initialized" exactly when the session is missing or the user id is unset or 0. |
| McpTools.AddTask | backend/app/mcp_tools.py:43-72 | A context error changes nothing. Otherwise one row owned by the context user is added with the given title and description. The result reports its fields and the message "✅ Task created: " plus the title. |
| McpTools.AddTaskMatchesCreateRoute | backend/app/mcp_tools.py:43-72 | For the same user, title and description, the tool and the create route leave the same table and report the same new row. |
| McpTools.FoundMessage | backend/app/mcp_tools.py:98 | The message is "Found ", the count in decimal digits, then " tasks.". The digits parse back to the count and have no leading zero. |
| McpTools.ListTasks | backend/app/mcp_tools.py:74-101 | A context error fails. Otherwise the data is a listing of the user's tasks, filtered by completion only when asked, newest first. The message's count is the list length. |
| McpTools.CompleteTask | backend/app/mcp_tools.py:103-123 | An absent or foreign task gives "Task not found" and changes nothing. Otherwise the flag flips, `updated_at` is refreshed, and the result reports the new flag as "completed" or "reopened". |
| McpTools.DeleteTask | backend/app/mcp_tools.py:125-139 | An absent or foreign task gives "Task not found" and changes nothing. Otherwise exactly that row is removed. |
| McpTools.UpdateTask | backend/app/mcp_tools.py:141-160 | An absent or foreign task gives "Task not found" and changes nothing. Otherwise only the given fields change, `updated_at` is refreshed, and other rows are untouched. |
| McpTools.FailuresChangeNothing | backend/app/mcp_tools.py:103-160 | Whenever complete, delete or update reports failure, the table is unchanged, whatever fields the update carries. |
| McpTools.CompleteTwice | backend/app/mcp_tools.py:112-120 | Completing twice restores the flag, and the second report names the original value. |
| ChatPipeline.Wrap | backend/app/routers/chat.py:197-203 | Any failure becomes a 500 whose detail is "Chat error: " followed by the error text. |
| ChatPipeline.Open | backend/app/routers/chat.py:89-99 | A non-zero id must name one of the user's conversations, which is then touched; otherwise the request fails with "404: Conversation not found". A missing or 0 id creates a new conversation owned by the user with a fresh id. |
| ChatPipeline.Append | backend/app/routers/chat.py:101-108 | The message gets a fresh id and is stored at the end of the table. Nothing else changes. |
| ChatPipeline.Entry | backend/app/routers/chat.py:124-125 | The role `user` stays `user` and every other role becomes `model`. The entry holds the message text. |
| ChatPipeline.BuildHistory | backend/app/routers/chat.py:112-125 | Every entry is a `user` or `model` entry holding one non-empty text part, and there are no more entries than messages. |
| ChatPipeline.BuildHistoryIsFilter | backend/app/routers/chat.py:112-125 | The history is exactly the entries of the messages of this conversation that are not the current message and not empty, in table order. |
| ChatPipeline.BuildHistorySnoc | backend/app/routers/chat.py:116-125 | A new row adds its entry at the end exactly when it qualifies. |
| ChatPipeline.ToolCallsConcat | backend/app/routers/chat.py:165-173 | Tool-call extraction distributes over concatenation of histories. |
| ChatPipeline.ToolCallsNone | backend/app/routers/chat.py:165-173 | A history without a function call in a `model` entry yields no tool calls. |
| ChatPipeline.CallsOf | backend/app/routers/chat.py:167-173 | At most one record per part, and each record's output is the constant "Executed". |
| ChatPipeline.CallsOfIsFilter | backend/app/routers/chat.py:167-173 | Each function-call part yields exactly one record with its name and arguments, in part order, and no other part yields one. |
| ChatPipeline.ToolCalls | backend/app/routers/chat.py:165-173 | Every record's output is the constant "Executed". |
| ChatPipeline.ToolCallsOfModelParts | backend/app/routers/chat.py:165-173 | The records of a history are those of the function-call parts of its `model` entries, in order. Entries of other roles contribute none. |
| ChatPipeline.ToolCallsFrom | backend/app/routers/chat.py:163-173 | Reading from a start index gives the records of the whole history minus those of the entries before the start, and nothing past the end. |
| ChatPipeline.SliceFrom | backend/app/routers/chat.py:163 | Python's slice: the prefix plus the slice is the whole list, and the slice is empty past the end. |
| ChatPipeline.Converse | backend/app/routers/chat.py:141-148 | The stored history is tried first. Only on failure is the model called exactly once more, with an empty history. |
| ChatPipeline.Chat | backend/app/routers/chat.py:72-207 | A refused access check changes nothing. Any later failure is a 500, and the tools' context is restored. Once the model is called, the user's message stays stored, and the task table is what the model's tools left. A failed model call becomes "Chat error: " plus its text. On success the answer is the model's reply text, and the tool calls are the records read from the session from the turn start. The table gains the user's message and then the reply, both in the user's conversation, and `tool_calls` is stored only when there are calls. A given conversation id is echoed. With `AsWritten` the turn start is always the stored history's length, as at line 163. |
| ChatPipeline.ChatForeignConversation | backend/app/routers/chat.py:88-203 | A foreign or missing conversation id stops the request before anything is stored or sent. It becomes "Chat error: 404: Conversation not found". |
| ChatPipeline.ChatNewConversation | backend/app/routers/chat.py:95-99 | Without a usable id, a new conversation owned by the user is created and carries the response. |
| ChatPipeline.ChatHistoryIsEarlierMessages | backend/app/routers/chat.py:101-139 | The model first gets the conversation's earlier non-empty messages in table order, never the message just stored. |
| ChatPipeline.ChatToolContextResolves | backend/app/routers/chat.py:85-86 | The context the endpoint installs lets every tool resolve the path user, unless that id is 0. |
| ChatPipeline.NewTurnStart | backend/app/routers/chat.py:141-163 | Corrected: the turn starts at 0 after a retry and at the stored history's length otherwise. As written, line 163 always uses the length. |
| ChatPipeline.NewTurnStartExact | backend/app/routers/chat.py:141-173 | Corrected: reading from the corrected start yields exactly the calls of the new turn, whether or not the session was restarted. |
| ChatPipeline.ConverseToolCalls | backend/app/routers/chat.py:141-173 | Corrected: for a model that extends its session, reading from the corrected start gives exactly the calls of the new turn, after a retry as well. |
| ChatPipeline.ChatCorrectedReportsTurn | backend/app/routers/chat.py:141-190 | Corrected: for a model that extends its session, the endpoint reports exactly the records of the entries the final attempt added. |
| ChatPipeline.ChatAfterRetry | backend/app/routers/chat.py:141-190 | When the first attempt fails and the retry answers, the response carries the retry's text and the records read from the restarted session. |
| ChatPipeline.AsWrittenLosesLeadingCalls | backend/app/routers/chat.py:141-173 | As written, the endpoint agrees with the corrected reading unless the model was retried. After a retry, its records are the corrected ones minus those of the restarted session's first `len(gemini_history)` entries. |
| ChatPipeline.AsWrittenDropsRetriedCalls | backend/app/routers/chat.py:141-173 | The finding's input, end to end: two stored messages, a failed first attempt, and a retried turn that calls `add_task`. As written, the endpoint answers with no tool call; corrected, it reports the call. |
| Config.CorsOriginsList | backend/app/config.py:31-34 | There is one entry per comma-separated segment, in order, so the count is the commas plus one. Each entry is the segment stripped, contains no comma, and has no whitespace at either end. |
| Config.ParseJoined | backend/app/config.py:34 | Clean origins written comma-separated parse back to the same list. |
| Config.TrailingComma | backend/app/config.py:34 | A trailing comma adds one empty entry at the end and changes none before it. |
| Sync.AddInSync | frontend/src/app/dashboard/page.tsx:61-70 | With a clock that does not run backwards, prepending the server's new task keeps the list an exact newest-first listing of the user's tasks. |
| Sync.ReplaceInSync | frontend/src/app/dashboard/page.tsx:72-91 | Swapping in a server row that keeps its id, owner and creation time keeps the list in sync with the table. |
| Sync.ToggleInSync | frontend/src/app/dashboard/page.tsx:72-80 | Toggling on the server and swapping in the answer keeps the list in sync. |
| Sync.EditInSync | frontend/src/app/dashboard/page.tsx:82-91 | Saving an edit on the server and swapping in the answer keeps the list in sync. |
| Sync.RemoveKeepsOrder | frontend/src/app/dashboard/page.tsx:97 | Filtering an id out keeps distinct ids and the newest-first order. |
| Sync.RemoveInSync | frontend/src/app/dashboard/page.tsx:97 | Filtering out an id the table no longer holds keeps the list in sync. |
| Sync.DeleteInSync | frontend/src/app/dashboard/page.tsx:93-101 | Deleting on the server and filtering the id out keeps the list in sync. |
| Sync.Load | frontend/src/app/dashboard/page.tsx:48-59 | A load whose listing is answered leaves the list in sync with the table. A refused load keeps the list, and loading ends either way. |

## Left out

- HTTP plumbing is not modelled: axios interceptors, tokens, local storage and redirects. A gateway call is only its outcome, and a missing token is one kind of failure.
- The language model SDK is not modelled: model configuration, the system prompt, and automatic function calling. The model is a parameter that returns the updated task table and either the reply (text and whole session history) or an error text. `response.text` is taken as that reply text.
- Database commits, refreshes and their failures are not modelled. A failed commit would surface as the 500 wrapper, which the model reaches through the 404 for a foreign or missing conversation, the model's error and the missing API key.
- The access check `verify_user_access` is not part of this model. It is a boolean parameter, and a refusal is one `AccessDenied` error that changes nothing.
- JSON encoding of `tool_calls` and ISO timestamps are left out. The stored tool calls are the list itself, and timestamps are integers.
- `toLowerCase` is modelled for ASCII letters only. Full Unicode case mapping is left out.
- Chat messages are ordered by `created_at` in the source, and the model takes that to be insertion order. The order of tasks with equal `created_at` is left to the database, and `TaskStore.IsListing` leaves it open.
- The route and tool handlers call the clock separately for `created_at` and `updated_at`. The model uses one `now` value for both.
- The HTML `required` attribute and the `max_length` column limits are left out. No code shown enforces them.
- Presentation components are left out: sidebar, task items, bubbles, avatars, empty states and layout.
- Function-call arguments are a map from strings to strings; the source passes any JSON value (an integer `task_id`, a boolean `completed`). The console output of the retry notice (`print`) and of the stack trace (`traceback.print_exc()`) in the chat route is left out. Neither changes a stated property.
- Concurrent interleavings are left out. Each dashboard handler is modelled against the list it was called with.
- The dashboard does not update optimistically and never rolls back. It has no per-task request queue, does not refuse a concurrent send, and does not reload tasks after a chat reply. The model has none of these either.

## Findings

| source | as written | input that shows it | evidently intended | confidence | as-written member | corrected member |
|---|---|---|---|---|---|---|
| backend/app/routers/chat.py:163 | After the retry at line 147 restarts the session with an empty history, the new turn is still sliced from `len(gemini_history)`. | The stored history has two entries and the first attempt fails. The retried session history is `[user, model(call add_task), function, model(text)]`, and slicing from 2 loses the `add_task` call. | Read the new turn from index 0 after a retry, so that every tool call of the turn is reported and stored. | not executed | ChatPipeline.AsWrittenDropsRetriedCalls | ChatPipeline.ChatCorrectedReportsTurn |

`ChatPipeline.Chat` with `AsWritten` is the endpoint as written. `AsWrittenLosesLeadingCalls` states what it loses for all inputs, and `AsWrittenDropsRetriedCalls` shows the loss on the input above. With `Corrected` it reports the whole turn, as `ChatCorrectedReportsTurn` proves.

=== FILE: add_task_form.dfy ===
/**
 * The older add-task form. A blank title is ignored; the handler itself has
 * no in-flight guard (only the submit button is disabled while loading).
 * Success clears both fields and closes the form; failure keeps them and the
 * form stays open. Cancel closes and clears.
 */
module AddTaskForm {
  import opened Wrappers
  import opened Domain
  import Text

  datatype State = State(isOpen: bool, title: string, description: string, loading: bool)

  const Initial: State := State(false, [], [], false)

  datatype AddCall = AddCall(title: string, description: string)

  /** The "Add Task" button of the closed form. */
  function Open(s: State): (r: State)
    ensures r.isOpen && r.title == s.title && r.description == s.description
  {
    s.(isOpen := true)
  }

  /** The submit handler up to its await; note that `loading` does not block it. */
  function Submit(s: State): (r: (State, Option<AddCall>))
    ensures Text.IsBlank(s.title) ==> r == (s, None)
    ensures !Text.IsBlank(s.title) ==> r.0 == s.(loading := true) && r.1 == Some(AddCall(s.title, s.description))
  {
    if Text.IsBlank(s.title) then (s, None)
    else (s.(loading := true), Some(AddCall(s.title, s.description)))
  }

  /** The submit handler after `onAdd` settles. */
  function Settle(s: State, outcome: Outcome<()>): (r: State)
    ensures !r.loading
    ensures outcome.Success? ==> !r.isOpen && r.title == [] && r.description == []
    ensures outcome.Failure? ==> r.isOpen == s.isOpen && r.title == s.title && r.description == s.description
  {
    if outcome.Success? then State(false, [], [], false) else s.(loading := false)
  }

  /** The Cancel button. */
  function Cancel(s: State): (r: State)
    ensures !r.isOpen && r.title == [] && r.description == []
    ensures r.loading == s.loading
  {
    s.(isOpen := false, title := [], description := [])
  }

  /** The submit button's `disabled`. */
  predicate SubmitDisabled(s: State) {
    s.loading
  }

  /**
   * The handler re-submits a non-blank form even while a call is in flight;
   * only the disabled button stops that. A rejected call leaves the form as
   * it was submitted.
   */
  lemma HandlerHasNoInFlightGuard(s: State, e: GatewayError)
    requires !Text.IsBlank(s.title)
    ensures Submit(Submit(s).0).1 == Some(AddCall(s.title, s.description))
    ensures SubmitDisabled(Submit(s).0)
    ensures !s.loading ==> Settle(Submit(s).0, Failure(e)) == s
  {
  }
}

=== FILE: chat_pipeline.dfy ===
/**
 * The server's chat endpoint. After the access check it sets the tools'
 * context to the path user, finds or creates the conversation, stores the
 * user's message, rebuilds the model history from the stored messages,
 * sends the message (retrying once with an empty history), reads the tool
 * calls from the session history, stores the reply and answers. Any failure after
 * the access check becomes a 500 "Chat error: ..." and the context is
 * restored on every path. The language model is a function parameter.
 */
module ChatPipeline {
  import opened Wrappers
  import opened Domain
  import Seqs
  import TaskStore
  import McpTools

  datatype Conversation = Conversation(id: int, userId: int, createdAt: int, updatedAt: int)

  /** The tool-call record handed back to the client and stored with the reply. */
  datatype ToolOutput = ToolOutput(success: bool, message: string)
  datatype ToolCallInfo = ToolCallInfo(toolName: string, inputs: map<string, string>, output: ToolOutput)

  /** A row of the messages table; `toolCalls` stands for the JSON column, `None` for NULL. */
  datatype StoredMessage = StoredMessage(id: int, conversationId: int, role: string, content: string,
                                         toolCalls: Option<seq<ToolCallInfo>>, createdAt: int)

  /** The chat tables, with messages in insertion order, and the next ids the database assigns. */
  datatype Db = Db(conversations: map<int, Conversation>, messages: seq<StoredMessage>,
                   nextConversationId: int, nextMessageId: int)

  /** A part of a model-history entry. */
  datatype Part = Text(text: string) | FunctionCall(name: string, args: map<string, string>) | FunctionResponse(name: string)

  datatype HistoryEntry = HistoryEntry(role: string, parts: seq<Part>)

  /** What a successful `send_message` leaves: the reply text and the session's whole history. */
  datatype Reply = Reply(text: string, history: seq<HistoryEntry>)

  /** One call of the model: the task table after any tools it ran, and its reply or error text. */
  datatype Attempt = Attempt(tasks: TaskStore.Store, outcome: Result<Reply, string>)

  /**
   * The language model with automatic function calling: given the tools'
   * context, the task table, the starting history, the message and the
   * attempt number, it answers or fails.
   */
  type Model = (McpTools.ToolContext, TaskStore.Store, seq<HistoryEntry>, string, nat) -> Attempt

  datatype ChatRequest = ChatRequest(conversationId: Option<int>, message: string)
  datatype ChatResponse = ChatResponse(conversationId: int, response: string, toolCalls: seq<ToolCallInfo>)

  datatype ApiError = AccessDenied | HttpError(status: int, detail: string)

  const Executed: ToolOutput := ToolOutput(true, "Executed")
  const ConversationNotFound: string := "404: Conversation not found"
  const ApiKeyMissing: string := "500: Gemini API key not configured"

  ghost predicate Valid(db: Db) {
    db.nextConversationId >= 1 && db.nextMessageId >= 1 &&
    (forall c :: c in db.conversations ==> db.conversations[c].id == c && 1 <= c < db.nextConversationId) &&
    (forall i :: 0 <= i < |db.messages| ==> 1 <= db.messages[i].id < db.nextMessageId)
  }

  /** The catch-all handler: the exception's text behind "Chat error: ", as a 500. */
  function Wrap(e: string): (r: ApiError)
    ensures r.HttpError? && r.status == 500
    ensures |r.detail| == |e| + 12 && r.detail[..12] == "Chat error: " && r.detail[12..] == e
  {
    HttpError(500, "Chat error: " + e)
  }

  /** A given, non-zero conversation id must name one of the user's conversations; otherwise a new one is made. */
  function Open(db: Db, userId: int, conversationId: Option<int>, now: int): (r: Result<(Db, Conversation), string>)
    requires Valid(db)
    ensures r.Success? ==> Valid(r.value.0) && r.value.0.messages == db.messages && r.value.0.nextMessageId == db.nextMessageId
    ensures r.Success? ==> r.value.1.userId == userId && r.value.0.conversations == db.conversations[r.value.1.id := r.value.1]
    ensures conversationId.Some? && conversationId.value != 0 ==>
      if conversationId.value in db.conversations && db.conversations[conversationId.value].userId == userId
      then r.Success? && r.value.1 == db.conversations[conversationId.value].(updatedAt := now)
      else r == Failure(ConversationNotFound)
    ensures conversationId.None? || conversationId.value == 0 ==>
      r.Success? && r.value.1 == Conversation(db.nextConversationId, userId, now, now) &&
      r.value.1.id !in db.conversations && r.value.0.nextConversationId == db.nextConversationId + 1
  {
    if conversationId.Some? && conversationId.value != 0 then
      var c := conversationId.value;
      if c !in db.conversations || db.conversations[c].userId != userId then Failure(ConversationNotFound)
      else
        var conv := db.conversations[c].(updatedAt := now);
        Success((db.(conversations := db.conversations[c := conv]), conv))
    else
      var conv := Conversation(db.nextConversationId, userId, now, now);
      Success((db.(conversations := db.conversations[conv.id := conv], nextConversationId := db.nextConversationId + 1), conv))
  }

  /** Stores a message with the next id at the end of the table. */
  function Append(db: Db, conversationId: int, role: string, content: string, toolCalls: Option<seq<ToolCallInfo>>, now: int): (r: (Db, StoredMessage))
    requires Valid(db)
    ensures Valid(r.0)
    ensures r.1 == StoredMessage(db.nextMessageId, conversationId, role, content, toolCalls, now)
    ensures r.0.messages == db.messages + [r.1] && r.0.conversations == db.conversations
    ensures forall i :: 0 <= i < |db.messages| ==> db.messages[i].id != r.1.id
  {
    var m := StoredMessage(db.nextMessageId, conversationId, role, content, toolCalls, now);
    (db.(messages := db.messages + [m], nextMessageId := db.nextMessageId + 1), m)
  }

  /** Whether a stored message goes into the history: same conversation, not the current message, not empty. */
  function InHistory(conversationId: int, currentId: int): StoredMessage -> bool {
    (m: StoredMessage) => m.conversationId == conversationId && m.id != currentId && m.content != []
  }

  /** The history entry of a stored message: `user` stays `user`, any other role becomes `model`. */
  function Entry(m: StoredMessage): (e: HistoryEntry)
    ensures e.role == "user" <==> m.role == "user"
    ensures e.role == "user" || e.role == "model"
    ensures e.parts == [Text(m.content)]
  {
    HistoryEntry(if m.role == "user" then "user" else "model", [Text(m.content)])
  }

  /** The model history rebuilt from the messages table, oldest first. */
  function BuildHistory(msgs: seq<StoredMessage>, conversationId: int, currentId: int): (h: seq<HistoryEntry>)
    ensures |h| <= |msgs|
    ensures forall i :: 0 <= i < |h| ==> (h[i].role == "user" || h[i].role == "model") && |h[i].parts| == 1 && h[i].parts[0].Text? && h[i].parts[0].text != []
  {
    if msgs == [] then []
    else
      var rest := BuildHistory(msgs[1..], conversationId, currentId);
      if InHistory(conversationId, currentId)(msgs[0]) then [Entry(msgs[0])] + rest else rest
  }

  /** The history grows message by message: a new row adds its entry at the end exactly when it qualifies. */
  lemma {:induction false} BuildHistorySnoc(msgs: seq<StoredMessage>, m: StoredMessage, conversationId: int, currentId: int)
    ensures BuildHistory(msgs + [m], conversationId, currentId) ==
      BuildHistory(msgs, conversationId, currentId) + (if InHistory(conversationId, currentId)(m) then [Entry(m)] else [])
  {
    if msgs == [] {
      assert msgs + [m] == [m];
    } else {
      assert (msgs + [m])[1..] == msgs[1..] + [m];
      BuildHistorySnoc(msgs[1..], m, conversationId, currentId);
    }
  }

  /** The history is exactly the entries of the qualifying messages, in table order. */
  lemma {:induction false} BuildHistoryIsFilter(msgs: seq<StoredMessage>, conversationId: int, currentId: int)
    ensures var kept := Seqs.Filter(msgs, InHistory(conversationId, currentId));
      BuildHistory(msgs, conversationId, currentId) == seq(|kept|, i requires 0 <= i < |kept| => Entry(kept[i]))
  {
    if msgs != [] {
      BuildHistoryIsFilter(msgs[1..], conversationId, currentId);
    }
  }

  /** The function-call parts of one entry, as tool-call records. */
  function CallsOf(parts: seq<Part>): (r: seq<ToolCallInfo>)
    ensures |r| <= |parts|
    ensures forall i :: 0 <= i < |r| ==> r[i].output == Executed
  {
    if parts == [] then []
    else (if parts[0].FunctionCall? then [ToolCallInfo(parts[0].name, parts[0].args, Executed)] else []) + CallsOf(parts[1..])
  }

  predicate IsCallPart(p: Part) {
    p.FunctionCall?
  }

  /**
   * Each function-call part yields exactly one record carrying its name and
   * arguments, in the order of the parts, and no other part yields one.
   */
  lemma {:induction false} CallsOfIsFilter(parts: seq<Part>)
    ensures var fc := Seqs.Filter(parts, IsCallPart);
      |CallsOf(parts)| == |fc| &&
      forall i :: 0 <= i < |fc| ==> fc[i].FunctionCall? && CallsOf(parts)[i] == ToolCallInfo(fc[i].name, fc[i].args, Executed)
  {
    if parts != [] {
      CallsOfIsFilter(parts[1..]);
      var fc := Seqs.Filter(parts, IsCallPart);
      var rest := Seqs.Filter(parts[1..], IsCallPart);
      if IsCallPart(parts[0]) {
        assert fc == [parts[0]] + rest;
        forall i | 0 < i < |fc|
          ensures fc[i].FunctionCall? && CallsOf(parts)[i] == ToolCallInfo(fc[i].name, fc[i].args, Executed)
        {
          assert fc[i] == rest[i - 1];
        }
      } else {
        assert fc == rest;
      }
    }
  }

  lemma {:induction false} CallsOfConcat(a: seq<Part>, b: seq<Part>)
    ensures CallsOf(a + b) == CallsOf(a) + CallsOf(b)
  {
    if a == [] {
      assert a + b == b;
    } else {
      assert (a + b)[1..] == a[1..] + b;
      CallsOfConcat(a[1..], b);
    }
  }

  /** One record per function-call part of a `model` entry, in order. */
  function ToolCalls(h: seq<HistoryEntry>): (r: seq<ToolCallInfo>)
    ensures forall i :: 0 <= i < |r| ==> r[i].output == Executed
  {
    if h == [] then []
    else (if h[0].role == "model" then CallsOf(h[0].parts) else []) + ToolCalls(h[1..])
  }

  predicate IsModelEntry(e: HistoryEntry) {
    e.role == "model"
  }

  /** The parts of a series of entries, one entry after another. */
  function AllParts(h: seq<HistoryEntry>): (r: seq<Part>)
    ensures |h| == 0 ==> r == []
  {
    if h == [] then [] else h[0].parts + AllParts(h[1..])
  }

  /**
   * The records of a history are those of the function-call parts of its
   * `model` entries, taken in order: entries of other roles contribute none.
   */
  lemma {:induction false} ToolCallsOfModelParts(h: seq<HistoryEntry>)
    ensures ToolCalls(h) == CallsOf(AllParts(Seqs.Filter(h, IsModelEntry)))
  {
    if h != [] {
      ToolCallsOfModelParts(h[1..]);
      var rest := Seqs.Filter(h[1..], IsModelEntry);
      if IsModelEntry(h[0]) {
        assert Seqs.Filter(h, IsModelEntry) == [h[0]] + rest;
        assert ([h[0]] + rest)[1..] == rest;
        CallsOfConcat(h[0].parts, AllParts(rest));
      } else {
        assert Seqs.Filter(h, IsModelEntry) == rest;
      }
    }
  }

  lemma {:induction false} ToolCallsConcat(a: seq<HistoryEntry>, b: seq<HistoryEntry>)
    ensures ToolCalls(a + b) == ToolCalls(a) + ToolCalls(b)
  {
    if a == [] {
      assert a + b == b;
    } else {
      assert (a + b)[1..] == a[1..] + b;
      ToolCallsConcat(a[1..], b);
    }
  }

  /** Entries that are not the model's, or carry no function call, contribute no records. */
  lemma {:induction false} ToolCallsNone(h: seq<HistoryEntry>)
    requires forall i, j :: 0 <= i < |h| && 0 <= j < |h[i].parts| ==> h[i].role != "model" || !h[i].parts[j].FunctionCall?
    ensures ToolCalls(h) == []
  {
    if h != [] {
      if h[0].role == "model" {
        CallsOfNone(h[0].parts);
      }
      ToolCallsNone(h[1..]);
    }
  }

  lemma {:induction false} CallsOfNone(parts: seq<Part>)
    requires forall j :: 0 <= j < |parts| ==> !parts[j].FunctionCall?
    ensures CallsOf(parts) == []
  {
    if parts != [] {
      CallsOfNone(parts[1..]);
    }
  }

  /** Python's `h[start:]`: empty once `start` passes the end. */
  function SliceFrom(h: seq<HistoryEntry>, start: nat): (r: seq<HistoryEntry>)
    ensures start <= |h| ==> h == h[..start] + r
    ensures start >= |h| ==> r == []
  {
    if start >= |h| then [] else h[start..]
  }

  /** The records of the entries from `start` on, as `h[start:]` gives them; those before `start` are not read. */
  function ToolCallsFrom(h: seq<HistoryEntry>, start: nat): (r: seq<ToolCallInfo>)
    ensures start >= |h| ==> r == []
    ensures start <= |h| ==> ToolCalls(h) == ToolCalls(h[..start]) + r
  {
    var tail := SliceFrom(h, start);
    if start <= |h| then
      ToolCallsConcat(h[..start], tail);
      ToolCalls(tail)
    else ToolCalls(tail)
  }

  /**
   * Where the new turn begins in the session history. After the retry the
   * session was restarted with an empty history, so the whole session
   * history is the new turn.
   */
  function NewTurnStart(historyLength: nat, retried: bool): (start: nat)
    ensures retried ==> start == 0
    ensures !retried ==> start == historyLength
  {
    if retried then 0 else historyLength
  }

  /**
   * A session started from `startHistory` that grew by `turn`: reading from
   * the corrected start yields exactly the calls of the turn, whether the
   * session was the original or the restarted one.
   */
  lemma NewTurnStartExact(history: seq<HistoryEntry>, turn: seq<HistoryEntry>, retried: bool)
    ensures var session := (if retried then [] else history) + turn;
      ToolCallsFrom(session, NewTurnStart(|history|, retried)) == ToolCalls(turn)
  {
    var session := (if retried then [] else history) + turn;
    assert SliceFrom(session, NewTurnStart(|history|, retried)) == turn;
  }

  /** The model calls of one request: the histories tried, the task table after them, and the final outcome. */
  datatype Run = Run(tried: seq<seq<HistoryEntry>>, tasks: TaskStore.Store, outcome: Result<Reply, string>)

  /** `send_message` with the stored history, and on any failure once more with an empty history. */
  function Converse(model: Model, ctx: McpTools.ToolContext, tasks: TaskStore.Store, history: seq<HistoryEntry>, message: string): (r: Run)
    ensures 1 <= |r.tried| <= 2 && r.tried[0] == history
    ensures model(ctx, tasks, history, message, 0).outcome.Success? ==>
      |r.tried| == 1 && r.tasks == model(ctx, tasks, history, message, 0).tasks && r.outcome == model(ctx, tasks, history, message, 0).outcome
    ensures model(ctx, tasks, history, message, 0).outcome.Failure? ==>
      var first := model(ctx, tasks, history, message, 0);
      |r.tried| == 2 && r.tried[1] == [] &&
      r.tasks == model(ctx, first.tasks, [], message, 1).tasks && r.outcome == model(ctx, first.tasks, [], message, 1).outcome
  {
    var first := model(ctx, tasks, history, message, 0);
    if first.outcome.Success? then Run([history], first.tasks, first.outcome)
    else
      var second := model(ctx, first.tasks, [], message, 1);
      Run([history, []], second.tasks, second.outcome)
  }

  /** Everything one request leaves behind. */
  datatype Trace = Trace(db: Db, tasks: TaskStore.Store, result: Result<ChatResponse, ApiError>, ctx: McpTools.ToolContext, tried: seq<seq<HistoryEntry>>)

  /**
   * Where the endpoint reads the new turn from once the model has answered.
   * `AsWritten` is the endpoint's `len(gemini_history)`, whether or not the
   * session was restarted; `Corrected` reads from the restarted session's start.
   */
  datatype Slicing = AsWritten | Corrected

  function TurnStart(slicing: Slicing, historyLength: nat, retried: bool): nat {
    if slicing.AsWritten? then historyLength else NewTurnStart(historyLength, retried)
  }

  /**
   * POST `/{user_id}/chat`. The tools see the path user; the model is first
   * given the stored history, and its reply text and the records read from
   * its session are what the endpoint answers and stores.
   */
  function Chat(db: Db, tasks: TaskStore.Store, ctx: McpTools.ToolContext, authorized: bool, userId: int,
                req: ChatRequest, apiKeyConfigured: bool, model: Model, slicing: Slicing, now: int): (r: Trace)
    requires Valid(db)
    ensures Valid(r.db)
    ensures r.ctx == ctx
    ensures !authorized ==> r == Trace(db, tasks, Failure(AccessDenied), ctx, [])
    ensures authorized && r.result.Failure? ==> r.result.error.HttpError? && r.result.error.status == 500
    ensures r.tried != [] ==> apiKeyConfigured
    ensures r.tried == [] ==> r.tasks == tasks && r.result.Failure?
    ensures r.tried != [] ==>
      var run := Converse(model, McpTools.ToolContext(true, Some(userId)), tasks, r.tried[0], req.message);
      r.tried == run.tried && r.tasks == run.tasks &&
      |r.db.messages| > |db.messages| && r.db.messages[..|db.messages|] == db.messages &&
      r.db.messages[|db.messages|].role == "user" && r.db.messages[|db.messages|].content == req.message &&
      (run.outcome.Failure? ==> r.result == Failure(Wrap(run.outcome.error)) && |r.db.messages| == |db.messages| + 1) &&
      (run.outcome.Success? ==>
        r.result.Success? &&
        r.result.value.response == run.outcome.value.text &&
        r.result.value.toolCalls == ToolCallsFrom(run.outcome.value.history, TurnStart(slicing, |r.tried[0]|, |r.tried| == 2)))
    ensures r.result.Success? && req.conversationId.Some? && req.conversationId.value != 0 ==>
      r.result.value.conversationId == req.conversationId.value
    ensures r.result.Success? ==>
      |r.db.messages| == |db.messages| + 2 && r.db.messages[..|db.messages|] == db.messages &&
      var userMsg := r.db.messages[|db.messages|];
      var reply := r.db.messages[|db.messages| + 1];
      var resp := r.result.value;
      resp.conversationId in r.db.conversations && r.db.conversations[resp.conversationId].userId == userId &&
      userMsg.role == "user" && userMsg.content == req.message && userMsg.conversationId == resp.conversationId &&
      reply.role == "assistant" && reply.content == resp.response && reply.conversationId == resp.conversationId &&
      reply.toolCalls == (if resp.toolCalls == [] then None else Some(resp.toolCalls))
  {
    if !authorized then Trace(db, tasks, Failure(AccessDenied), ctx, [])
    else
      match Open(db, userId, req.conversationId, now)
      case Failure(e) => Trace(db, tasks, Failure(Wrap(e)), ctx, [])
      case Success((db1, conv)) =>
        var (db2, userMsg) := Append(db1, conv.id, "user", req.message, None, now);
        var history := BuildHistory(db2.messages, conv.id, userMsg.id);
        if !apiKeyConfigured then Trace(db2, tasks, Failure(Wrap(ApiKeyMissing)), ctx, [])
        else
          var run := Converse(model, McpTools.ToolContext(true, Some(userId)), tasks, history, req.message);
          match run.outcome
          case Failure(e) => Trace(db2, run.tasks, Failure(Wrap(e)), ctx, run.tried)
          case Success(reply) =>
            var calls := ToolCallsFrom(reply.history, TurnStart(slicing, |history|, |run.tried| == 2));
            var (db3, _) := Append(db2, conv.id, "assistant", reply.text, if calls == [] then None else Some(calls), now);
            Trace(db3, run.tasks, Success(ChatResponse(conv.id, reply.text, calls)), ctx, run.tried)
  }

  /** A conversation id that is given but not the user's stops the request before anything is stored or sent. */
  lemma ChatForeignConversation(db: Db, tasks: TaskStore.Store, ctx: McpTools.ToolContext, userId: int,
                                req: ChatRequest, apiKeyConfigured: bool, model: Model, slicing: Slicing, now: int)
    requires Valid(db) && req.conversationId.Some? && req.conversationId.value != 0
    requires req.conversationId.value !in db.conversations || db.conversations[req.conversationId.value].userId != userId
    ensures Chat(db, tasks, ctx, true, userId, req, apiKeyConfigured, model, slicing, now) ==
      Trace(db, tasks, Failure(HttpError(500, "Chat error: 404: Conversation not found")), ctx, [])
  {
    assert Open(db, userId, req.conversationId, now) == Failure(ConversationNotFound);
    assert "Chat error: " + ConversationNotFound == "Chat error: 404: Conversation not found";
  }

  /** Without a usable conversation id a new conversation owned by the user carries the exchange. */
  lemma ChatNewConversation(db: Db, tasks: TaskStore.Store, ctx: McpTools.ToolContext, userId: int,
                            req: ChatRequest, apiKeyConfigured: bool, model: Model, slicing: Slicing, now: int)
    requires Valid(db) && (req.conversationId.None? || req.conversationId.value == 0)
    ensures var r := Chat(db, tasks, ctx, true, userId, req, apiKeyConfigured, model, slicing, now);
      db.nextConversationId in r.db.conversations && db.nextConversationId !in db.conversations &&
      r.db.conversations[db.nextConversationId] == Conversation(db.nextConversationId, userId, now, now) &&
      (r.result.Success? ==> r.result.value.conversationId == db.nextConversationId)
  {
  }

  /**
   * The history the model is first given holds exactly the earlier non-empty
   * messages of the conversation, in table order; the message just stored is
   * never part of it.
   */
  lemma ChatHistoryIsEarlierMessages(db: Db, tasks: TaskStore.Store, ctx: McpTools.ToolContext, userId: int,
                                     req: ChatRequest, model: Model, slicing: Slicing, now: int)
    requires Valid(db) && Open(db, userId, req.conversationId, now).Success?
    ensures var c := Open(db, userId, req.conversationId, now).value.1.id;
      var r := Chat(db, tasks, ctx, true, userId, req, true, model, slicing, now);
      |r.tried| >= 1 && r.tried[0] == BuildHistory(db.messages, c, db.nextMessageId)
  {
    var (db1, conv) := Open(db, userId, req.conversationId, now).value;
    var (db2, userMsg) := Append(db1, conv.id, "user", req.message, None, now);
    BuildHistorySnoc(db.messages, userMsg, conv.id, userMsg.id);
    HistoryIgnoresFreshId(db.messages, conv.id, db.nextMessageId);
  }

  /** An id above every stored id excludes nothing. */
  lemma {:induction false} HistoryIgnoresFreshId(msgs: seq<StoredMessage>, conversationId: int, freshId: int)
    requires forall i :: 0 <= i < |msgs| ==> msgs[i].id < freshId
    ensures BuildHistory(msgs, conversationId, freshId) == BuildHistory(msgs, conversationId, freshId + 1)
  {
    if msgs != [] {
      HistoryIgnoresFreshId(msgs[1..], conversationId, freshId);
    }
  }

  /** The model extends the session history it was started with. */
  ghost predicate SessionGrows(model: Model) {
    forall ctx, tasks, h, message, n ::
      model(ctx, tasks, h, message, n).outcome.Success? ==>
        |h| <= |model(ctx, tasks, h, message, n).outcome.value.history| &&
        model(ctx, tasks, h, message, n).outcome.value.history[..|h|] == h
  }

  /**
   * For a model that extends its session, the tool calls read from the
   * session are exactly those of the new turn, after a retry as well.
   */
  lemma ConverseToolCalls(model: Model, ctx: McpTools.ToolContext, tasks: TaskStore.Store, history: seq<HistoryEntry>, message: string)
    requires SessionGrows(model)
    ensures var r := Converse(model, ctx, tasks, history, message);
      r.outcome.Success? ==>
        var start := r.tried[|r.tried| - 1];
        var session := r.outcome.value.history;
        |start| <= |session| &&
        ToolCallsFrom(session, NewTurnStart(|history|, |r.tried| == 2)) == ToolCalls(session[|start|..])
  {
    var r := Converse(model, ctx, tasks, history, message);
    if r.outcome.Success? {
      var start := r.tried[|r.tried| - 1];
      var session := r.outcome.value.history;
      var first := model(ctx, tasks, history, message, 0);
      if first.outcome.Success? {
        assert session[..|history|] == history;
      } else {
        assert session[..0] == [];
      }
      assert session == start + session[|start|..];
      NewTurnStartExact(history, session[|start|..], |r.tried| == 2);
    }
  }

  /**
   * With the corrected reading, and a model that extends the session it was
   * started with, the endpoint reports exactly the records of the new turn:
   * the entries the final attempt added to its starting history.
   */
  lemma ChatCorrectedReportsTurn(db: Db, tasks: TaskStore.Store, ctx: McpTools.ToolContext, authorized: bool, userId: int,
                                 req: ChatRequest, apiKeyConfigured: bool, model: Model, now: int)
    requires Valid(db) && SessionGrows(model)
    ensures var r := Chat(db, tasks, ctx, authorized, userId, req, apiKeyConfigured, model, Corrected, now);
      r.result.Success? ==>
        var run := Converse(model, McpTools.ToolContext(true, Some(userId)), tasks, r.tried[0], req.message);
        var start := run.tried[|run.tried| - 1];
        |start| <= |run.outcome.value.history| &&
        r.result.value.toolCalls == ToolCalls(run.outcome.value.history[|start|..])
  {
    var r := Chat(db, tasks, ctx, authorized, userId, req, apiKeyConfigured, model, Corrected, now);
    if r.result.Success? {
      ConverseToolCalls(model, McpTools.ToolContext(true, Some(userId)), tasks, r.tried[0], req.message);
    }
  }

  /**
   * The endpoint as written agrees with the corrected reading unless the
   * model was retried. After a retry it reports only a tail of the turn's
   * records: those of the first `len(gemini_history)` entries of the
   * restarted session are lost.
   */
  lemma AsWrittenLosesLeadingCalls(db: Db, tasks: TaskStore.Store, ctx: McpTools.ToolContext, authorized: bool, userId: int,
                                   req: ChatRequest, apiKeyConfigured: bool, model: Model, now: int)
    requires Valid(db)
    ensures var w := Chat(db, tasks, ctx, authorized, userId, req, apiKeyConfigured, model, AsWritten, now);
      var c := Chat(db, tasks, ctx, authorized, userId, req, apiKeyConfigured, model, Corrected, now);
      w.tried == c.tried && w.tasks == c.tasks && (w.result.Success? <==> c.result.Success?) &&
      (|w.tried| < 2 ==> w == c) &&
      (w.result.Success? && |w.tried| == 2 ==>
        var session := Converse(model, McpTools.ToolContext(true, Some(userId)), tasks, w.tried[0], req.message).outcome.value.history;
        var k := if |w.tried[0]| <= |session| then |w.tried[0]| else |session|;
        c.result.value.toolCalls == ToolCalls(session[..k]) + w.result.value.toolCalls)
  {
    var w := Chat(db, tasks, ctx, authorized, userId, req, apiKeyConfigured, model, AsWritten, now);
    if w.result.Success? && |w.tried| == 2 {
      var session := Converse(model, McpTools.ToolContext(true, Some(userId)), tasks, w.tried[0], req.message).outcome.value.history;
      if |w.tried[0]| <= |session| {
        assert session[..0] == [];
      } else {
        assert session[..|session|] == session;
        assert session[..0] == [];
      }
    }
  }

  /**
   * A request on one of the user's conversations whose first attempt fails
   * and whose retry answers is answered with the retry's text and the
   * records read from the restarted session.
   */
  lemma ChatAfterRetry(db: Db, tasks: TaskStore.Store, ctx: McpTools.ToolContext, userId: int,
                       req: ChatRequest, model: Model, slicing: Slicing, now: int, reply: Reply)
    requires Valid(db) && req.conversationId.Some? && req.conversationId.value != 0
    requires Open(db, userId, req.conversationId, now).Success?
    requires var h := BuildHistory(db.messages, req.conversationId.value, db.nextMessageId);
      var first := model(McpTools.ToolContext(true, Some(userId)), tasks, h, req.message, 0);
      first.outcome.Failure? &&
      model(McpTools.ToolContext(true, Some(userId)), first.tasks, [], req.message, 1).outcome == Success(reply)
    ensures var h := BuildHistory(db.messages, req.conversationId.value, db.nextMessageId);
      Chat(db, tasks, ctx, true, userId, req, true, model, slicing, now).result ==
        Success(ChatResponse(req.conversationId.value, reply.text, ToolCallsFrom(reply.history, TurnStart(slicing, |h|, true))))
  {
    ChatHistoryIsEarlierMessages(db, tasks, ctx, userId, req, model, slicing, now);
  }

  /** The input of the finding: two stored messages of conversation 1, owned by user 7. */
  const RetryExampleDb: Db := Db(map[1 := Conversation(1, 7, 0, 0)],
    [StoredMessage(1, 1, "user", "hi", None, 0), StoredMessage(2, 1, "assistant", "hello", None, 0)], 2, 3)

  /** The restarted session after the retry: the user's message, an `add_task` call, its result and the text. */
  const RetryExampleTurn: seq<HistoryEntry> := [HistoryEntry("user", [Text("add milk")]),
    HistoryEntry("model", [FunctionCall("add_task", map["title" := "milk"])]),
    HistoryEntry("function", [FunctionResponse("add_task")]),
    HistoryEntry("model", [Text("Added milk")])]

  /** A model that rejects the stored history and answers the retry with `RetryExampleTurn`. */
  const RetryExampleModel: Model := (c, ts, h, m, n) =>
    if n == 0 then Attempt(ts, Failure("turns must alternate")) else Attempt(ts, Success(Reply("Added milk", RetryExampleTurn)))

  lemma RetryExampleHistory()
    ensures Valid(RetryExampleDb)
    ensures |BuildHistory(RetryExampleDb.messages, 1, 3)| == 2
  {
    assert RetryExampleDb.messages[1..][1..] == [];
  }

  lemma RetryExampleCalls()
    ensures ToolCallsFrom(RetryExampleTurn, 2) == []
    ensures ToolCallsFrom(RetryExampleTurn, 0) == [ToolCallInfo("add_task", map["title" := "milk"], Executed)]
  {
    var turn := RetryExampleTurn;
    assert SliceFrom(turn, 2) == turn[2..] && SliceFrom(turn, 0) == turn;
    assert turn[1..][1..] == turn[2..];
    assert turn[2..][1..] == [turn[3]];
    assert CallsOf([Text("Added milk")]) == [];
    assert CallsOf([FunctionCall("add_task", map["title" := "milk"])]) == [ToolCallInfo("add_task", map["title" := "milk"], Executed)];
  }

  /**
   * The input of the finding, end to end: a first attempt that fails and a
   * retried turn that calls `add_task`. As written the endpoint answers (and
   * stores) no tool call; corrected it reports the call.
   */
  lemma AsWrittenDropsRetriedCalls(tasks: TaskStore.Store, ctx: McpTools.ToolContext)
    ensures Valid(RetryExampleDb)
    ensures Chat(RetryExampleDb, tasks, ctx, true, 7, ChatRequest(Some(1), "add milk"), true, RetryExampleModel, AsWritten, 5).result ==
      Success(ChatResponse(1, "Added milk", []))
    ensures Chat(RetryExampleDb, tasks, ctx, true, 7, ChatRequest(Some(1), "add milk"), true, RetryExampleModel, Corrected, 5).result ==
      Success(ChatResponse(1, "Added milk", [ToolCallInfo("add_task", map["title" := "milk"], Executed)]))
  {
    RetryExampleHistory();
    RetryExampleCalls();
    var req := ChatRequest(Some(1), "add milk");
    assert Open(RetryExampleDb, 7, req.conversationId, 5).Success?;
    ChatAfterRetry(RetryExampleDb, tasks, ctx, 7, req, RetryExampleModel, AsWritten, 5, Reply("Added milk", RetryExampleTurn));
    ChatAfterRetry(RetryExampleDb, tasks, ctx, 7, req, RetryExampleModel, Corrected, 5, Reply("Added milk", RetryExampleTurn));
  }

  /** The context the endpoint installs for the tools resolves to the path user, unless that id is 0. */
  lemma ChatToolContextResolves(userId: int)
    ensures McpTools.GetContext(McpTools.ToolContext(true, Some(userId))) ==
      (if userId != 0 then Success(userId) else Failure(McpTools.ContextError))
  {
  }
}

=== FILE: chat_window.dfy ===
/**
 * The chat window's session state: the message log, the conversation id
 * adopted from the server, the loading flag and the error banner. A send is
 * split at its await point: `BeginSend` is what happens before the gateway
 * call and `CompleteSend` what happens once it settles. Both the composer and
 * the quick-action buttons are disabled while a send is in flight; the send
 * handler itself has no guard.
 */
module ChatWindow {
  import opened Wrappers
  import opened Domain
  import Composer
  import Text

  datatype Role = UserRole | AssistantRole

  /** One entry of the log; `createdAt` is the client clock when it was appended. */
  datatype ChatMessage = ChatMessage(role: Role, content: string, createdAt: int)

  /** A tool invocation the server reports; informational only, the window never reads it. */
  datatype ToolCall = ToolCall(toolName: string, inputs: map<string, string>, output: map<string, string>)

  /** The body of a successful chat call. */
  datatype ChatResponse = ChatResponse(conversationId: int, response: string, toolCalls: seq<ToolCall>)

  /** What the window hands to the chat gateway: the message and the conversation id it held at that moment. */
  datatype ChatRequest = ChatRequest(message: string, conversationId: Option<int>)

  datatype Window = Window(
    messages: seq<ChatMessage>,
    conversationId: Option<int>,
    isLoading: bool,
    error: Option<string>)

  const Greeting: string := "Hi! I'm your task assistant. I can help you add, view, update, and manage your tasks. What would you like to do?"
  const Apology: string := "Sorry, I encountered an error. Please try again."
  const DefaultError: string := "Failed to send message. Please try again."

  /** The canned texts of the quick-action buttons. */
  const QuickActionMessages: seq<string> := ["I want to add a new task", "Show my pending tasks", "Show my completed tasks"]

  /** JavaScript truthiness of an optional number: absent and 0 are both false. */
  predicate Truthy(id: Option<int>) {
    id.Some? && id.value != 0
  }

  /** A freshly opened window: one assistant greeting, no conversation, idle, no error. */
  function Initial(now: int): (w: Window)
    ensures |w.messages| == 1 && w.messages[0].role == AssistantRole && w.messages[0].content == Greeting
    ensures w.conversationId.None? && !w.isLoading && w.error.None?
  {
    Window([ChatMessage(AssistantRole, Greeting, now)], None, false, None)
  }

  /**
   * Before the await: the user's message is appended at once, the window is
   * loading, the error is cleared, and the request carries the id held now.
   */
  function BeginSend(w: Window, content: string, now: int): (r: (Window, ChatRequest))
    ensures r.0.messages == w.messages + [ChatMessage(UserRole, content, now)]
    ensures r.0.isLoading && r.0.error.None? && r.0.conversationId == w.conversationId
    ensures r.1 == ChatRequest(content, w.conversationId)
  {
    (Window(w.messages + [ChatMessage(UserRole, content, now)], w.conversationId, true, None),
     ChatRequest(content, w.conversationId))
  }

  /** The banner text for a failed send: the server's `detail` when non-empty, else the default text. */
  function ErrorText(e: GatewayError): (t: string)
    ensures e.detail.Some? && e.detail.value != [] ==> t == e.detail.value
    ensures !(e.detail.Some? && e.detail.value != []) ==> t == DefaultError
  {
    if e.detail.Some? && e.detail.value != [] then e.detail.value else DefaultError
  }

  /**
   * After the await. Success appends the reply and adopts the response's
   * conversation id only if the request went out without one; failure sets
   * the banner and appends the fixed apology. Exactly one assistant message
   * is appended, nothing earlier is touched, and loading ends either way.
   */
  function CompleteSend(w: Window, req: ChatRequest, outcome: Outcome<ChatResponse>, now: int): (r: Window)
    ensures |r.messages| == |w.messages| + 1 && r.messages[..|w.messages|] == w.messages
    ensures r.messages[|w.messages|].role == AssistantRole && r.messages[|w.messages|].createdAt == now
    ensures !r.isLoading
    ensures outcome.Success? ==>
      && r.messages[|w.messages|].content == outcome.value.response
      && r.conversationId == (if Truthy(req.conversationId) then w.conversationId else Some(outcome.value.conversationId))
      && r.error == w.error
    ensures outcome.Failure? ==>
      && r.messages[|w.messages|].content == Apology
      && r.conversationId == w.conversationId
      && r.error == Some(ErrorText(outcome.error))
  {
    match outcome
    case Success(resp) =>
      var id := if Truthy(req.conversationId) then w.conversationId else Some(resp.conversationId);
      Window(w.messages + [ChatMessage(AssistantRole, resp.response, now)], id, false, w.error)
    case Failure(e) =>
      Window(w.messages + [ChatMessage(AssistantRole, Apology, now)], w.conversationId, false, Some(ErrorText(e)))
  }

  /** A whole send with nothing interleaved between its two halves. */
  function Send(w: Window, content: string, outcome: Outcome<ChatResponse>, sentAt: int, settledAt: int): Window {
    var (mid, req) := BeginSend(w, content, sentAt);
    CompleteSend(mid, req, outcome, settledAt)
  }

  /** The assistant's text for a settled send: the reply, or the apology. */
  function Answer(outcome: Outcome<ChatResponse>): string {
    if outcome.Success? then outcome.value.response else Apology
  }

  /**
   * One completed send grows the log by exactly two messages, the user's then
   * an assistant's, keeps everything before them, and never lets a held
   * conversation id be replaced.
   */
  lemma SendAppendsPair(w: Window, content: string, outcome: Outcome<ChatResponse>, sentAt: int, settledAt: int)
    ensures var r := Send(w, content, outcome, sentAt, settledAt);
      && r.messages == w.messages + [ChatMessage(UserRole, content, sentAt), ChatMessage(AssistantRole, Answer(outcome), settledAt)]
      && !r.isLoading
      && (Truthy(w.conversationId) ==> r.conversationId == w.conversationId)
      && (outcome.Success? && !Truthy(w.conversationId) ==> r.conversationId == Some(outcome.value.conversationId))
      && (outcome.Success? ==> r.error.None?)
  {
    var (mid, req) := BeginSend(w, content, sentAt);
    var r := CompleteSend(mid, req, outcome, settledAt);
    assert r.messages == mid.messages + [r.messages[|mid.messages|]];
  }

  /** One turn of a conversation: the text sent and how the gateway answered. */
  datatype Turn = Turn(content: string, outcome: Outcome<ChatResponse>)

  /** Replays a series of sends, each completing before the next begins, all at time `now`. */
  function Replay(w: Window, turns: seq<Turn>, now: int): Window
    decreases |turns|
  {
    if |turns| == 0 then w else Replay(Send(w, turns[0].content, turns[0].outcome, now, now), turns[1..], now)
  }

  /** The messages a series of turns should leave: per turn, the user's text and then the assistant's answer. */
  function Exchange(turns: seq<Turn>, now: int): (r: seq<ChatMessage>)
    ensures |r| == 2 * |turns|
  {
    if turns == [] then []
    else [ChatMessage(UserRole, turns[0].content, now), ChatMessage(AssistantRole, Answer(turns[0].outcome), now)] + Exchange(turns[1..], now)
  }

  /** Turn `i` owns positions `2i` (the user's text) and `2i + 1` (the answer) of the exchange. */
  lemma {:induction false} ExchangeAt(turns: seq<Turn>, now: int, i: nat)
    requires i < |turns|
    ensures Exchange(turns, now)[2 * i] == ChatMessage(UserRole, turns[i].content, now)
    ensures Exchange(turns, now)[2 * i + 1] == ChatMessage(AssistantRole, Answer(turns[i].outcome), now)
  {
    if i > 0 {
      ExchangeAt(turns[1..], now, i - 1);
    }
  }

  /**
   * Over any series of sends the log is the earlier messages followed by the
   * exchange of the turns; once a non-zero conversation id is held it is
   * never replaced.
   */
  lemma {:induction false} ReplayLog(w: Window, turns: seq<Turn>, now: int)
    ensures Replay(w, turns, now).messages == w.messages + Exchange(turns, now)
    ensures Truthy(w.conversationId) ==> Replay(w, turns, now).conversationId == w.conversationId
    decreases |turns|
  {
    if |turns| > 0 {
      var w1 := Send(w, turns[0].content, turns[0].outcome, now, now);
      SendAppendsPair(w, turns[0].content, turns[0].outcome, now, now);
      ReplayLog(w1, turns[1..], now);
      assert Replay(w, turns, now) == Replay(w1, turns[1..], now);
    }
  }

  /** A freshly opened window keeps its greeting first, and the sends follow it in turn order. */
  lemma ReplayFromInitial(turns: seq<Turn>, now: int)
    ensures Replay(Initial(now), turns, now).messages == [ChatMessage(AssistantRole, Greeting, now)] + Exchange(turns, now)
    ensures |Replay(Initial(now), turns, now).messages| == 1 + 2 * |turns|
  {
    ReplayLog(Initial(now), turns, now);
  }

  /** The composer's and the quick actions' `disabled` wiring. */
  predicate InputsDisabled(w: Window) {
    w.isLoading
  }

  /** A quick-action click: the same send path with a canned text; a disabled button does nothing. */
  function QuickAction(w: Window, index: nat, now: int): (r: (Window, Option<ChatRequest>))
    requires index < |QuickActionMessages|
    ensures InputsDisabled(w) ==> r == (w, None)
    ensures !InputsDisabled(w) ==> r.1 == Some(BeginSend(w, QuickActionMessages[index], now).1) && r.0 == BeginSend(w, QuickActionMessages[index], now).0
  {
    if InputsDisabled(w) then (w, None)
    else
      var (mid, req) := BeginSend(w, QuickActionMessages[index], now);
      (mid, Some(req))
  }

  /** The composer's send action wired to this window: the trimmed text goes through the same send path. */
  function ComposerSend(w: Window, text: string, now: int): (r: (Window, string, Option<ChatRequest>))
  {
    var res := Composer.HandleSend(text, InputsDisabled(w));
    match res.sent
    case None => (w, res.text, None)
    case Some(m) =>
      var (mid, req) := BeginSend(w, m, now);
      (mid, res.text, Some(req))
  }

  /**
   * Turn order: while a send is in flight neither the composer nor a quick
   * action appends a message or issues a request; the composer also keeps
   * its text. Right after `BeginSend` the window is in flight.
   */
  lemma NoSendWhileLoading(w: Window, text: string, index: nat, now: int)
    requires index < |QuickActionMessages|
    ensures BeginSend(w, text, now).0.isLoading
    ensures w.isLoading ==> ComposerSend(w, text, now) == (w, text, None)
    ensures w.isLoading ==> QuickAction(w, index, now) == (w, None)
  {
  }

  /** When idle, the composer sends the trimmed text exactly when it is not blank. */
  lemma ComposerSendsTrimmed(w: Window, text: string, now: int)
    requires !w.isLoading
    ensures ComposerSend(w, text, now).2.Some? <==> !Text.IsBlank(text)
    ensures ComposerSend(w, text, now).2.Some? ==>
      ComposerSend(w, text, now).2.value.message == Text.Trim(Text.JsTrim, text)
  {
  }
}

=== FILE: composer.dfy ===
/**
 * The chat composer: a text box that sends its trimmed contents and then
 * clears itself, refusing blank text and refusing everything while disabled.
 */
module Composer {
  import opened Wrappers
  import Text

  /** What one attempt to send did: the text handed to `onSend` (if any) and the box's contents afterwards. */
  datatype SendResult = SendResult(sent: Option<string>, text: string)

  /** The Send action: trims, dispatches unless blank or disabled, then clears. */
  function HandleSend(text: string, disabled: bool): (r: SendResult)
    ensures r.sent.Some? <==> !Text.IsBlank(text) && !disabled
    ensures r.sent.Some? ==> r.sent.value == Text.Trim(Text.JsTrim, text) && r.text == []
    ensures r.sent.None? ==> r.text == text
  {
    var trimmed := Text.Trim(Text.JsTrim, text);
    if trimmed != [] && !disabled then SendResult(Some(trimmed), []) else SendResult(None, text)
  }

  /**
   * A key press in the text box: Enter without Shift takes the send path;
   * every other key (Shift+Enter inserts a newline) sends nothing and leaves
   * the model's text as it is.
   */
  function HandleKeyDown(key: string, shiftKey: bool, text: string, disabled: bool): (r: SendResult)
    ensures key == "Enter" && !shiftKey ==> r == HandleSend(text, disabled)
    ensures !(key == "Enter" && !shiftKey) ==> r == SendResult(None, text)
  {
    if key == "Enter" && !shiftKey then HandleSend(text, disabled) else SendResult(None, text)
  }

  /** The send button's `disabled` attribute. */
  predicate SendButtonDisabled(text: string, disabled: bool): (d: bool)
    ensures d <==> disabled || Text.AllSpace(Text.JsTrim, text)
  {
    disabled || Text.IsBlank(text)
  }

  /**
   * The button is enabled exactly when pressing it dispatches a message, and
   * what it dispatches is never blank and has no surrounding whitespace.
   */
  lemma ButtonEnabledIffSends(text: string, disabled: bool)
    ensures !SendButtonDisabled(text, disabled) <==> HandleSend(text, disabled).sent.Some?
    ensures HandleSend(text, disabled).sent.Some? ==>
      var m := HandleSend(text, disabled).sent.value;
      m != [] && !Text.IsSpace(Text.JsTrim, m[0]) && !Text.IsSpace(Text.JsTrim, m[|m| - 1])
  {
  }

  /** Enter without Shift sends exactly when the button is enabled; Shift+Enter never sends. */
  lemma EnterSendsIffEnabled(text: string, disabled: bool)
    ensures HandleKeyDown("Enter", false, text, disabled).sent.Some? <==> !SendButtonDisabled(text, disabled)
    ensures HandleKeyDown("Enter", true, text, disabled) == SendResult(None, text)
  {
  }
}

=== FILE: config.dfy ===
/**
 * The settings' list of allowed CORS origins: the configured text split on
 * commas, each piece stripped of surrounding whitespace. Nothing is dropped,
 * so an empty piece (from a doubled or trailing comma) stays as ''.
 */
module Config {
  import Text

  function CorsOriginsList(origins: string): (r: seq<string>)
    ensures |r| == Text.Count(origins, ',') + 1
    ensures forall i :: 0 <= i < |r| ==> r[i] == Text.Trim(Text.PyStrip, Text.Split(origins, ',')[i])
    ensures forall i :: 0 <= i < |r| ==> ',' !in r[i]
    ensures forall i :: 0 <= i < |r| && |r[i]| > 0 ==> !Text.IsSpace(Text.PyStrip, r[i][0]) && !Text.IsSpace(Text.PyStrip, r[i][|r[i]| - 1])
  {
    var pieces := Text.Split(origins, ',');
    seq(|pieces|, i requires 0 <= i < |pieces| => Text.Trim(Text.PyStrip, pieces[i]))
  }

  /** A list of clean origins survives being written out comma-separated and parsed back. */
  lemma ParseJoined(origins: seq<string>)
    requires |origins| >= 1
    requires forall i :: 0 <= i < |origins| ==> ',' !in origins[i]
    requires forall i :: 0 <= i < |origins| && |origins[i]| > 0 ==>
      !Text.IsSpace(Text.PyStrip, origins[i][0]) && !Text.IsSpace(Text.PyStrip, origins[i][|origins[i]| - 1])
    ensures CorsOriginsList(Text.Join(origins, ',')) == origins
  {
    Text.SplitJoin(origins, ',');
    forall i | 0 <= i < |origins|
      ensures Text.Trim(Text.PyStrip, origins[i]) == origins[i]
    {
      Text.TrimStripped(Text.PyStrip, origins[i]);
    }
  }

  /** A trailing separator adds one empty piece at the end. */
  lemma {:induction false} SplitTrailing(s: string, sep: char)
    ensures Text.Split(s + [sep], sep) == Text.Split(s, sep) + [[]]
    decreases |s|
  {
    if |s| == 0 {
      assert s + [sep] == [sep];
      assert [sep][1..] == [];
    } else {
      assert (s + [sep])[1..] == s[1..] + [sep];
      SplitTrailing(s[1..], sep);
    }
  }

  /** A trailing comma is kept as one more, empty, entry; the entries before it do not change. */
  lemma TrailingComma(origins: string)
    ensures CorsOriginsList(origins + ",") == CorsOriginsList(origins) + [""]
  {
    SplitTrailing(origins, ',');
    Text.TrimStripped(Text.PyStrip, []);
  }
}

=== FILE: dashboard.dfy ===
/**
 * The dashboard page's task list. Every handler awaits its gateway call and
 * only then replaces the list with one derived from the list it was called
 * with; nothing is applied optimistically and nothing is rolled back. A
 * handler called while no user is signed in does nothing at all.
 */
module Dashboard {
  import opened Wrappers
  import opened Domain
  import Seqs

  datatype User = User(id: int, username: string)

  /** The page's task state: the list and the `loading` flag (initially true). */
  datatype State = State(tasks: seq<Task>, loading: bool)

  const Initial: State := State([], true)

  /** A call on the task gateway, with the arguments the handler passes. */
  datatype Call =
    | GetAll(userId: int)
    | Create(userId: int, title: string, description: string)
    | ToggleComplete(userId: int, taskId: int)
    | Update(userId: int, taskId: int, title: string, description: string)
    | Delete(userId: int, taskId: int)

  /**
   * The effect of one handler invocation: the state it leaves, the gateway
   * call it issued (None when it returned early) and the error it rethrew to
   * its caller (None when it resolved).
   */
  datatype Step = Step(state: State, call: Option<Call>, rethrown: Option<GatewayError>)

  /** The entry with id `id` replaced by `t`: `tasks.map(task => task.id === id ? t : task)`. */
  function ReplaceById(ts: seq<Task>, id: int, t: Task): (r: seq<Task>)
    ensures |r| == |ts|
    ensures forall i :: 0 <= i < |ts| ==> r[i] == (if ts[i].id == id then t else ts[i])
  {
    seq(|ts|, i requires 0 <= i < |ts| => if ts[i].id == id then t else ts[i])
  }

  function HasOtherId(id: int): Task -> bool {
    (t: Task) => t.id != id
  }

  /** Every entry whose id is not `id`, in order: `tasks.filter(task => task.id !== id)`. */
  function RemoveById(ts: seq<Task>, id: int): (r: seq<Task>)
    ensures forall i :: 0 <= i < |r| ==> r[i].id != id && r[i] in ts
    ensures forall i :: 0 <= i < |ts| && ts[i].id != id ==> ts[i] in r
  {
    Seqs.FilterMembers(ts, HasOtherId(id));
    Seqs.Filter(ts, HasOtherId(id))
  }

  /** Load: success replaces the whole list, failure keeps it; `loading` ends false either way. */
  function FetchTasks(s: State, user: Option<User>, outcome: Outcome<seq<Task>>): (r: Step)
    ensures user.None? ==> r == Step(s, None, None)
    ensures user.Some? ==> r.call == Some(GetAll(user.value.id)) && !r.state.loading && r.rethrown.None?
    ensures user.Some? && outcome.Success? ==> r.state.tasks == outcome.value
    ensures user.Some? && outcome.Failure? ==> r.state.tasks == s.tasks
  {
    match user
    case None => Step(s, None, None)
    case Some(u) =>
      match outcome
      case Success(data) => Step(State(data, false), Some(GetAll(u.id)), None)
      case Failure(_) => Step(s.(loading := false), Some(GetAll(u.id)), None)
  }

  /** Add: success puts the server's task in front of the unchanged list; failure keeps the list and rethrows. */
  function AddTask(s: State, user: Option<User>, title: string, description: string, outcome: Outcome<Task>): (r: Step)
    ensures user.None? ==> r == Step(s, None, None)
    ensures user.Some? ==> r.call == Some(Create(user.value.id, title, description))
    ensures user.Some? && outcome.Success? ==>
      && |r.state.tasks| == |s.tasks| + 1
      && r.state.tasks[0] == outcome.value
      && r.state.tasks[1..] == s.tasks
      && r.rethrown.None?
    ensures user.Some? && outcome.Failure? ==> r.state == s && r.rethrown == Some(outcome.error)
  {
    match user
    case None => Step(s, None, None)
    case Some(u) =>
      var call := Some(Create(u.id, title, description));
      match outcome
      case Success(t) => Step(s.(tasks := [t] + s.tasks), call, None)
      case Failure(e) => Step(s, call, Some(e))
  }

  /** Toggle: success swaps in the server's task for every entry with that id; failure is swallowed. */
  function ToggleCompleteTask(s: State, user: Option<User>, taskId: int, outcome: Outcome<Task>): (r: Step)
    ensures user.None? ==> r == Step(s, None, None)
    ensures user.Some? ==> r.call == Some(ToggleComplete(user.value.id, taskId)) && r.rethrown.None?
    ensures user.Some? && outcome.Success? ==>
      && |r.state.tasks| == |s.tasks|
      && (forall i :: 0 <= i < |s.tasks| && s.tasks[i].id == taskId ==> r.state.tasks[i] == outcome.value)
      && (forall i :: 0 <= i < |s.tasks| && s.tasks[i].id != taskId ==> r.state.tasks[i] == s.tasks[i])
    ensures user.Some? && outcome.Failure? ==> r.state == s
  {
    match user
    case None => Step(s, None, None)
    case Some(u) =>
      var call := Some(ToggleComplete(u.id, taskId));
      match outcome
      case Success(t) => Step(s.(tasks := ReplaceById(s.tasks, taskId, t)), call, None)
      case Failure(_) => Step(s, call, None)
  }

  /** Edit: like toggle on success, but a failure is rethrown so the edit dialog stays open. */
  function EditTaskSave(s: State, user: Option<User>, taskId: int, title: string, description: string, outcome: Outcome<Task>): (r: Step)
    ensures user.None? ==> r == Step(s, None, None)
    ensures user.Some? ==> r.call == Some(Update(user.value.id, taskId, title, description))
    ensures user.Some? && outcome.Success? ==>
      && |r.state.tasks| == |s.tasks|
      && (forall i :: 0 <= i < |s.tasks| && s.tasks[i].id == taskId ==> r.state.tasks[i] == outcome.value)
      && (forall i :: 0 <= i < |s.tasks| && s.tasks[i].id != taskId ==> r.state.tasks[i] == s.tasks[i])
      && r.rethrown.None?
    ensures user.Some? && outcome.Failure? ==> r.state == s && r.rethrown == Some(outcome.error)
  {
    match user
    case None => Step(s, None, None)
    case Some(u) =>
      var call := Some(Update(u.id, taskId, title, description));
      match outcome
      case Success(t) => Step(s.(tasks := ReplaceById(s.tasks, taskId, t)), call, None)
      case Failure(e) => Step(s, call, Some(e))
  }

  /** Delete: success drops exactly the entries with that id, keeping the others in order; failure is swallowed. */
  function DeleteTask(s: State, user: Option<User>, taskId: int, outcome: Outcome<()>): (r: Step)
    ensures user.None? ==> r == Step(s, None, None)
    ensures user.Some? ==> r.call == Some(Delete(user.value.id, taskId)) && r.rethrown.None?
    ensures user.Some? && outcome.Success? ==>
      && taskId !in IdsOf(r.state.tasks)
      && (forall i :: 0 <= i < |s.tasks| && s.tasks[i].id != taskId ==> s.tasks[i] in r.state.tasks)
      && (forall i :: 0 <= i < |r.state.tasks| ==> r.state.tasks[i] in s.tasks)
    ensures user.Some? && outcome.Failure? ==> r.state == s
  {
    match user
    case None => Step(s, None, None)
    case Some(u) =>
      var call := Some(Delete(u.id, taskId));
      match outcome
      case Success(_) => Step(s.(tasks := RemoveById(s.tasks, taskId)), call, None)
      case Failure(_) => Step(s, call, None)
  }

  /** Removal keeps relative order: it distributes over concatenation. */
  lemma RemoveByIdConcat(a: seq<Task>, b: seq<Task>, id: int)
    ensures RemoveById(a + b, id) == RemoveById(a, id) + RemoveById(b, id)
  {
    Seqs.FilterConcat(a, b, HasOtherId(id));
  }

  /** Removing an id that is not listed changes nothing, and removing twice is removing once. */
  lemma RemoveByIdAbsentAndIdempotent(ts: seq<Task>, id: int)
    ensures id !in IdsOf(ts) ==> RemoveById(ts, id) == ts
    ensures RemoveById(RemoveById(ts, id), id) == RemoveById(ts, id)
  {
    if id !in IdsOf(ts) {
      forall i | 0 <= i < |ts|
        ensures HasOtherId(id)(ts[i])
      {
        assert ts[i].id in IdsOf(ts);
      }
      Seqs.FilterAll(ts, HasOtherId(id));
    }
    var r := RemoveById(ts, id);
    Seqs.FilterAll(r, HasOtherId(id));
  }

  /** An edit to an entry is invisible once that entry is deleted. */
  lemma {:induction false} RemoveAfterReplace(ts: seq<Task>, id: int, t: Task)
    requires t.id == id
    ensures RemoveById(ReplaceById(ts, id, t), id) == RemoveById(ts, id)
    decreases |ts|
  {
    if |ts| > 0 {
      RemoveAfterReplace(ts[1..], id, t);
      var rep := ReplaceById(ts, id, t);
      assert rep == [rep[0]] + ReplaceById(ts[1..], id, t);
      assert ts == [ts[0]] + ts[1..];
      RemoveByIdConcat([rep[0]], ReplaceById(ts[1..], id, t), id);
      RemoveByIdConcat([ts[0]], ts[1..], id);
    }
  }

  /** Replacing an entry by a task with the same id keeps the list of ids, position by position. */
  lemma ReplaceKeepsIds(ts: seq<Task>, id: int, t: Task)
    requires t.id == id
    ensures forall i :: 0 <= i < |ts| ==> ReplaceById(ts, id, t)[i].id == ts[i].id
    ensures IdsOf(ReplaceById(ts, id, t)) == IdsOf(ts)
  {
    var r := ReplaceById(ts, id, t);
    assert forall i :: 0 <= i < |ts| ==> r[i].id == ts[i].id;
    forall x | x in IdsOf(ts) ensures x in IdsOf(r) {
      var i :| 0 <= i < |ts| && ts[i].id == x;
      assert r[i].id == x;
    }
  }
}

=== FILE: domain.dfy ===
/**
 * Record shapes shared by the client and the server: the task as the server
 * stores and returns it, and the error a rejected gateway call carries.
 * Timestamps (`created_at`, `updated_at`) are integers: a later instant is a
 * larger number.
 */
module Domain {
  import opened Wrappers

  /** A stored task (`Task` table row, `TaskResponse`, and the client's `Task` interface). */
  datatype Task = Task(
    id: int,
    userId: int,
    title: string,
    description: Option<string>,
    completed: bool,
    createdAt: int,
    updatedAt: int)

  /**
   * A rejected gateway promise: the error's `message` and, when the server
   * answered with an error body, its `detail` field.
   */
  datatype GatewayError = GatewayError(message: string, detail: Option<string>)

  /** What awaiting a gateway call yields: its value, or the error it was rejected with. */
  type Outcome<T> = Result<T, GatewayError>

  /** The ids of a task list. */
  function IdsOf(ts: seq<Task>): set<int> {
    set i | 0 <= i < |ts| :: ts[i].id
  }

  predicate IsIncomplete(t: Task) {
    !t.completed
  }
}

=== FILE: edit_task_modal.dfy ===
/**
 * The dashboard's edit dialog. Its fields follow the task being edited; a
 * submit with no task, a blank title or a save in flight is ignored;
 * `onClose` is called only after `onSave` resolves, so a rejected save keeps
 * the dialog open with the fields as they were.
 */
module EditTaskModal {
  import opened Wrappers
  import opened Domain
  import Text

  datatype State = State(title: string, description: string, isSaving: bool)

  const Initial: State := State([], [], false)

  /** The arguments `onSave` receives: the task's id and the fields as typed. */
  datatype SaveCall = SaveCall(taskId: int, title: string, description: string)

  /** The effect run when the `task` prop changes: a task loads its title and description (`null` becomes ''). */
  function SyncFields(s: State, task: Option<Task>): (r: State)
    ensures task.Some? ==> r.title == task.value.title && r.description == task.value.description.GetOr([])
    ensures task.None? ==> r == s
    ensures r.isSaving == s.isSaving
  {
    match task
    case Some(t) => s.(title := t.title, description := t.description.GetOr([]))
    case None => s
  }

  /** The submit handler up to its await. */
  function Submit(s: State, task: Option<Task>): (r: (State, Option<SaveCall>))
    ensures task.None? || Text.IsBlank(s.title) || s.isSaving ==> r == (s, None)
    ensures !(task.None? || Text.IsBlank(s.title) || s.isSaving) ==>
      r.0 == s.(isSaving := true) && r.1 == Some(SaveCall(task.value.id, s.title, s.description))
  {
    if task.None? || Text.IsBlank(s.title) || s.isSaving then (s, None)
    else (s.(isSaving := true), Some(SaveCall(task.value.id, s.title, s.description)))
  }

  /** The submit handler after `onSave` settles: the new state and whether `onClose` was called. */
  function Settle(s: State, outcome: Outcome<()>): (r: (State, bool))
    ensures !r.0.isSaving
    ensures r.1 <==> outcome.Success?
    ensures r.0.title == s.title && r.0.description == s.description
  {
    (s.(isSaving := false), outcome.Success?)
  }

  /**
   * A save that is issued and rejected closes nothing and leaves the fields
   * exactly as submitted; one that resolves closes the dialog. A second
   * submit while saving issues nothing.
   */
  lemma CloseOnlyAfterSuccess(s: State, task: Option<Task>, outcome: Outcome<()>)
    requires Submit(s, task).1.Some?
    ensures Submit(Submit(s, task).0, task).1.None?
    ensures Settle(Submit(s, task).0, outcome).1 <==> outcome.Success?
    ensures outcome.Failure? ==> Settle(Submit(s, task).0, outcome).0 == s
  {
  }

  /** Opened on a task and submitted unchanged, the dialog saves the task's own title and description. */
  lemma SavesLoadedFields(s: State, t: Task)
    requires !Text.IsBlank(t.title) && !s.isSaving
    ensures Submit(SyncFields(s, Some(t)), Some(t)).1 == Some(SaveCall(t.id, t.title, t.description.GetOr([])))
  {
  }
}

=== FILE: legacy_edit_task_modal.dfy ===
/**
 * The older edit dialog. It renders nothing without a task; its fields
 * follow the task; a blank title is ignored; the handler has no in-flight
 * guard (the submit button is disabled while loading); `onClose` runs only
 * after a successful save.
 */
module LegacyEditTaskModal {
  import opened Wrappers
  import opened Domain
  import Text

  datatype State = State(title: string, description: string, loading: bool)

  datatype SaveCall = SaveCall(taskId: int, title: string, description: string)

  /** What the dialog shows: nothing for a null task, otherwise a form bound to its fields. */
  datatype View = Hidden | Form(title: string, description: string, submitDisabled: bool)

  function Render(s: State, task: Option<Task>): (v: View)
    ensures task.None? <==> v.Hidden?
    ensures v.Form? ==> v.title == s.title && v.description == s.description && v.submitDisabled == s.loading
  {
    if task.None? then Hidden else Form(s.title, s.description, s.loading)
  }

  function SyncFields(s: State, task: Option<Task>): (r: State)
    ensures task.Some? ==> r.title == task.value.title && r.description == task.value.description.GetOr([])
    ensures task.None? ==> r == s
    ensures r.loading == s.loading
  {
    match task
    case Some(t) => s.(title := t.title, description := t.description.GetOr([]))
    case None => s
  }

  /** The submit handler up to its await; it exists only once a task is shown. */
  function Submit(s: State, task: Task): (r: (State, Option<SaveCall>))
    ensures Text.IsBlank(s.title) ==> r == (s, None)
    ensures !Text.IsBlank(s.title) ==> r.0 == s.(loading := true) && r.1 == Some(SaveCall(task.id, s.title, s.description))
  {
    if Text.IsBlank(s.title) then (s, None)
    else (s.(loading := true), Some(SaveCall(task.id, s.title, s.description)))
  }

  /** A click on the submit button: a disabled button does nothing. */
  function SubmitViaButton(s: State, task: Task): (r: (State, Option<SaveCall>))
    ensures s.loading ==> r == (s, None)
    ensures !s.loading ==> r == Submit(s, task)
  {
    if s.loading then (s, None) else Submit(s, task)
  }

  /** The submit handler after `onSave` settles: the new state and whether `onClose` was called. */
  function Settle(s: State, outcome: Outcome<()>): (r: (State, bool))
    ensures !r.0.loading
    ensures r.1 <==> outcome.Success?
    ensures r.0.title == s.title && r.0.description == s.description
  {
    (s.(loading := false), outcome.Success?)
  }

  /**
   * Re-submission while saving: the handler alone issues a second save, the
   * button does not. A rejected save keeps the dialog open with its fields.
   */
  lemma ResubmitBlockedOnlyByButton(s: State, task: Task, outcome: Outcome<()>)
    requires !Text.IsBlank(s.title)
    ensures Submit(Submit(s, task).0, task).1.Some?
    ensures SubmitViaButton(Submit(s, task).0, task).1.None?
    ensures !Settle(Submit(s, task).0, outcome).1 <==> outcome.Failure?
    ensures !s.loading && outcome.Failure? ==> Settle(Submit(s, task).0, outcome).0 == s
  {
  }

  /** Opened on a task and submitted unchanged, the dialog saves the task's own title and description. */
  lemma SavesLoadedFields(s: State, t: Task)
    requires !Text.IsBlank(t.title)
    ensures Submit(SyncFields(s, Some(t)), t).1 == Some(SaveCall(t.id, t.title, t.description.GetOr([])))
  {
  }
}

=== FILE: mcp_tools.dfy ===
/**
 * The task tools the chatbot may call. Each reads the request's session and
 * user from context, works on the task table, and never raises: every
 * failure becomes a result with `success` false and the error text.
 */
module McpTools {
  import opened Wrappers
  import opened Domain
  import opened TaskStore
  import Text
  import TasksRouter

  /** The two request-scoped context variables; an unset user id is `None`. */
  datatype ToolContext = ToolContext(hasSession: bool, userId: Option<int>)

  /** The `data` payloads the tools produce. */
  datatype TaskSummary = TaskSummary(id: int, title: string, description: Option<string>, completed: bool)
  datatype ToolData =
    | NoData
    | Created(id: int, title: string, description: Option<string>, completed: bool, createdAt: int)
    | Listed(tasks: seq<TaskSummary>)
    | Completion(id: int, completed: bool)

  datatype ToolResult = ToolResult(success: bool, data: ToolData, message: string, error: string)

  /** A value of the dictionary `to_dict` builds. */
  datatype Field = Flag(b: bool) | Payload(d: ToolData) | Words(s: string)

  const ContextError: string := "Context not initialized"
  const TaskNotFound: string := "Task not found"

  /** A failed result: no data, no message, the error text. */
  function Fail(error: string): (r: ToolResult)
    ensures !r.success && r.data == NoData && r.message == [] && r.error == error
  {
    ToolResult(false, NoData, [], error)
  }

  function ToDict(r: ToolResult): (m: map<string, Field>)
    ensures m.Keys == {"success", "data", "message", "error"}
    ensures m["success"] == Flag(r.success) && m["data"] == Payload(r.data)
    ensures m["message"] == Words(r.message) && m["error"] == Words(r.error)
  {
    map["success" := Flag(r.success), "data" := Payload(r.data), "message" := Words(r.message), "error" := Words(r.error)]
  }

  /** Reads a result back from its dictionary; `None` for anything `ToDict` cannot produce. */
  function FromDict(m: map<string, Field>): (r: Option<ToolResult>)
    ensures r.Some? ==> m.Keys >= {"success", "data", "message", "error"}
  {
    if "success" in m && "data" in m && "message" in m && "error" in m &&
       m["success"].Flag? && m["data"].Payload? && m["message"].Words? && m["error"].Words?
    then Some(ToolResult(m["success"].b, m["data"].d, m["message"].s, m["error"].s))
    else None
  }

  /** The dictionary form loses nothing. */
  lemma DictRoundTrip(r: ToolResult)
    ensures FromDict(ToDict(r)) == Some(r)
  {
  }

  /** Python truthiness: no session, or a user id that is unset or 0, is an error. */
  function GetContext(ctx: ToolContext): (r: Result<int, string>)
    ensures r.Failure? <==> !ctx.hasSession || ctx.userId.None? || ctx.userId.value == 0
    ensures r.Failure? ==> r.error == ContextError
    ensures r.Success? ==> ctx.userId == Some(r.value) && r.value != 0
  {
    if !ctx.hasSession || ctx.userId.None? || ctx.userId.value == 0 then Failure(ContextError)
    else Success(ctx.userId.value)
  }

  /** The outcome of a tool: the table after it and the result it reports. */
  datatype Outcome = Outcome(store: Store, result: ToolResult)

  function AddTask(st: Store, ctx: ToolContext, title: string, description: string, now: int): (r: Outcome)
    requires Valid(st)
    ensures Valid(r.store)
    ensures GetContext(ctx).Failure? ==> r == Outcome(st, Fail(ContextError))
    ensures GetContext(ctx).Success? ==>
      st.nextId in r.store.tasks &&
      var t := r.store.tasks[st.nextId];
      r.store.tasks == st.tasks[st.nextId := t] &&
      t.userId == GetContext(ctx).value && t.title == title && t.description == Some(description) && !t.completed &&
      r.result == ToolResult(true, Created(t.id, title, Some(description), false, now), "✅ Task created: " + title, [])
  {
    match GetContext(ctx)
    case Failure(e) => Outcome(st, Fail(e))
    case Success(userId) =>
      var (st', t) := Insert(st, userId, title, Some(description), now);
      Outcome(st', ToolResult(true, Created(t.id, t.title, t.description, t.completed, t.createdAt), "✅ Task created: " + title, []))
  }

  /** The chatbot's tool and the create route store the same row for the same user, title and description. */
  lemma AddTaskMatchesCreateRoute(st: Store, ctx: ToolContext, title: string, description: string, now: int)
    requires Valid(st) && GetContext(ctx).Success?
    ensures var route := TasksRouter.CreateTask(st, true, GetContext(ctx).value, TasksRouter.TaskCreate(title, Some(description)), now);
      var tool := AddTask(st, ctx, title, description, now);
      route.result.Success? && tool.store == route.store &&
      tool.result.data == Created(route.result.value.id, title, Some(description), false, now)
  {
  }

  function Summary(t: Task): (s: TaskSummary)
    ensures s.id == t.id && s.title == t.title && s.description == t.description && s.completed == t.completed
  {
    TaskSummary(t.id, t.title, t.description, t.completed)
  }

  /** The message of a listing: its length in decimal. */
  function FoundMessage(n: nat): (m: string)
    ensures |m| >= 14 && m[..6] == "Found " && m[|m| - 7..] == " tasks."
    ensures (forall i :: 6 <= i < |m| - 7 ==> Text.IsDigit(m[i])) && Text.ParseNat(m[6..|m| - 7]) == n
    ensures |m| > 14 ==> m[6] != '0'
  {
    var digits := Text.NatToString(n);
    Text.ParseNatToString(n);
    var m := "Found " + digits + " tasks.";
    assert m[6..|m| - 7] == digits && m[6] == digits[0];
    m
  }

  method ListTasks(st: Store, ctx: ToolContext, completed: Option<bool>) returns (r: ToolResult)
    requires Valid(st)
    ensures GetContext(ctx).Failure? ==> r == Fail(ContextError)
    ensures GetContext(ctx).Success? ==>
      r.success && r.data.Listed? && r.error == [] && r.message == FoundMessage(|r.data.tasks|) &&
      exists ts :: IsListing(st, GetContext(ctx).value, completed, ts) &&
        |ts| == |r.data.tasks| && forall i :: 0 <= i < |ts| ==> r.data.tasks[i] == Summary(ts[i])
  {
    match GetContext(ctx)
    case Failure(e) =>
      return Fail(e);
    case Success(userId) =>
      var ts := List(st, userId, completed);
      var summaries := seq(|ts|, i requires 0 <= i < |ts| => Summary(ts[i]));
      return ToolResult(true, Listed(summaries), FoundMessage(|summaries|), []);
  }

  function CompleteTask(st: Store, ctx: ToolContext, taskId: int, now: int): (r: Outcome)
    requires Valid(st)
    ensures Valid(r.store)
    ensures GetContext(ctx).Failure? ==> r == Outcome(st, Fail(ContextError))
    ensures GetContext(ctx).Success? && !Owned(st, GetContext(ctx).value, taskId) ==> r == Outcome(st, Fail(TaskNotFound))
    ensures GetContext(ctx).Success? && Owned(st, GetContext(ctx).value, taskId) ==>
      var t := st.tasks[taskId];
      var nowDone := !t.completed;
      r.store.tasks == st.tasks[taskId := t.(completed := nowDone, updatedAt := now)] &&
      r.result == ToolResult(true, Completion(taskId, nowDone), if nowDone then "✅ Task completed" else "✅ Task reopened", [])
  {
    match GetContext(ctx)
    case Failure(e) => Outcome(st, Fail(e))
    case Success(userId) =>
      match Lookup(st, userId, taskId)
      case None => Outcome(st, Fail(TaskNotFound))
      case Some(t) =>
        var t' := Flip(t, now);
        Outcome(Put(st, t'), ToolResult(true, Completion(t'.id, t'.completed),
          "✅ Task " + (if t'.completed then "completed" else "reopened"), []))
  }

  function DeleteTask(st: Store, ctx: ToolContext, taskId: int): (r: Outcome)
    requires Valid(st)
    ensures Valid(r.store)
    ensures GetContext(ctx).Failure? ==> r == Outcome(st, Fail(ContextError))
    ensures GetContext(ctx).Success? && !Owned(st, GetContext(ctx).value, taskId) ==> r == Outcome(st, Fail(TaskNotFound))
    ensures GetContext(ctx).Success? && Owned(st, GetContext(ctx).value, taskId) ==>
      r.store.tasks == st.tasks - {taskId} && r.result == ToolResult(true, NoData, "\U{1F5D1}️ Task deleted", [])
  {
    match GetContext(ctx)
    case Failure(e) => Outcome(st, Fail(e))
    case Success(userId) =>
      match Lookup(st, userId, taskId)
      case None => Outcome(st, Fail(TaskNotFound))
      case Some(_) => Outcome(Remove(st, taskId), ToolResult(true, NoData, "\U{1F5D1}️ Task deleted", []))
  }

  function UpdateTask(st: Store, ctx: ToolContext, taskId: int, title: Option<string>, description: Option<string>, completed: Option<bool>, now: int): (r: Outcome)
    requires Valid(st)
    ensures Valid(r.store)
    ensures GetContext(ctx).Failure? ==> r == Outcome(st, Fail(ContextError))
    ensures GetContext(ctx).Success? && !Owned(st, GetContext(ctx).value, taskId) ==> r == Outcome(st, Fail(TaskNotFound))
    ensures GetContext(ctx).Success? && Owned(st, GetContext(ctx).value, taskId) ==>
      r.store.tasks.Keys == st.tasks.Keys &&
      var old_ := st.tasks[taskId];
      var t := r.store.tasks[taskId];
      (forall id :: id in st.tasks && id != taskId ==> r.store.tasks[id] == st.tasks[id]) &&
      t.id == taskId && t.userId == old_.userId && t.createdAt == old_.createdAt && t.updatedAt == now &&
      t.title == (if title.Some? then title.value else old_.title) &&
      t.description == (if description.Some? then description else old_.description) &&
      t.completed == (if completed.Some? then completed.value else old_.completed) &&
      r.result == ToolResult(true, NoData, "✏️ Task updated", [])
  {
    match GetContext(ctx)
    case Failure(e) => Outcome(st, Fail(e))
    case Success(userId) =>
      match Lookup(st, userId, taskId)
      case None => Outcome(st, Fail(TaskNotFound))
      case Some(t) =>
        Outcome(Put(st, Patch(t, TaskUpdate(title, description, completed), now)), ToolResult(true, NoData, "✏️ Task updated", []))
  }

  /** A failed tool leaves the table alone and reports no success, whichever tool it is. */
  lemma FailuresChangeNothing(st: Store, ctx: ToolContext, taskId: int, title: Option<string>, description: Option<string>,
                               completed: Option<bool>, now: int)
    requires Valid(st)
    ensures !CompleteTask(st, ctx, taskId, now).result.success ==> CompleteTask(st, ctx, taskId, now).store == st
    ensures !DeleteTask(st, ctx, taskId).result.success ==> DeleteTask(st, ctx, taskId).store == st
    ensures !UpdateTask(st, ctx, taskId, title, description, completed, now).result.success ==>
      UpdateTask(st, ctx, taskId, title, description, completed, now).store == st
  {
  }

  /** Completing twice restores the flag; the second report names the original state. */
  lemma CompleteTwice(st: Store, ctx: ToolContext, taskId: int, now1: int, now2: int)
    requires Valid(st) && GetContext(ctx).Success? && Owned(st, GetContext(ctx).value, taskId)
    ensures var r1 := CompleteTask(st, ctx, taskId, now1);
      var r2 := CompleteTask(r1.store, ctx, taskId, now2);
      r2.store.tasks[taskId].completed == st.tasks[taskId].completed &&
      r2.result.data == Completion(taskId, st.tasks[taskId].completed)
  {
  }
}

=== FILE: projection.dfy ===
/**
 * The dashboard's derived view: the tasks matching the search text (and, for
 * the "completed" filter, only completed ones), sorted so that incomplete
 * tasks come first and, within each group, newer tasks come first. The sort
 * is JavaScript's `Array.prototype.sort`, which is stable, so tasks that
 * compare equal keep their input order. Also the "remaining" counter.
 */
module Projection {
  import opened Domain
  import Text
  import Seqs

  /** Case-insensitive title search: `title.toLowerCase().includes(query.toLowerCase())`. */
  predicate MatchesSearch(t: Task, query: string): (b: bool)
    ensures b <==> exists i :: Text.OccursAt(Text.Lower(t.title), Text.Lower(query), i)
    ensures query == [] ==> b
  {
    Text.IncludesIffOccurs(Text.Lower(t.title), Text.Lower(query));
    Text.IncludesEmpty(Text.Lower(t.title));
    Text.Includes(Text.Lower(t.title), Text.Lower(query))
  }

  /** The filter callback: the search must match, and under "completed" the task must be completed. */
  function Keeps(filter: string, query: string): (keep: Task -> bool)
    ensures forall t :: keep(t) <==> MatchesSearch(t, query) && (filter == "completed" ==> t.completed)
  {
    (t: Task) => if filter == "completed" then t.completed && MatchesSearch(t, query) else MatchesSearch(t, query)
  }

  /** The sort comparator: negative when `a` is shown before `b`. */
  function Compare(a: Task, b: Task): (r: int)
    ensures r < 0 <==> (!a.completed && b.completed) || (a.completed == b.completed && a.createdAt > b.createdAt)
    ensures r == 0 <==> a.completed == b.completed && a.createdAt == b.createdAt
  {
    if a.completed && !b.completed then 1
    else if !a.completed && b.completed then -1
    else b.createdAt - a.createdAt
  }

  /** `a` must be shown strictly before `b`. */
  predicate Precedes(a: Task, b: Task) {
    Compare(a, b) < 0
  }

  /** The comparator's sort key; tasks with the same key compare equal. */
  datatype Key = Key(completed: bool, createdAt: int)

  function KeyOf(t: Task): Key {
    Key(t.completed, t.createdAt)
  }

  function HasKey(k: Key): Task -> bool {
    (t: Task) => KeyOf(t) == k
  }

  /** The comparator is antisymmetric, compares equal exactly on equal keys, and `<= 0` is transitive. */
  lemma CompareIsTotalPreorder(a: Task, b: Task, c: Task)
    ensures Compare(a, b) == -Compare(b, a)
    ensures Compare(a, b) == 0 <==> KeyOf(a) == KeyOf(b)
    ensures Compare(a, b) <= 0 && Compare(b, c) <= 0 ==> Compare(a, c) <= 0
  {
  }

  /** No task is shown after one that must follow it. */
  predicate Sorted(s: seq<Task>) {
    forall i, j :: 0 <= i < j < |s| ==> !Precedes(s[j], s[i])
  }

  /** Inserts `x` in front of the first entry that does not strictly precede it. */
  function Insert(x: Task, s: seq<Task>): (r: seq<Task>)
    ensures |r| == |s| + 1
    ensures multiset(r) == multiset(s) + multiset{x}
    ensures Sorted(s) ==> Sorted(r)
    decreases |s|
  {
    if |s| == 0 then [x]
    else if Precedes(s[0], x) then
      var tail := Insert(x, s[1..]);
      assert s == [s[0]] + s[1..];
      InsertHeadStaysFirst(s, x, tail);
      [s[0]] + tail
    else
      InsertAtFront(x, s);
      [x] + s
  }

  lemma InsertHeadStaysFirst(s: seq<Task>, x: Task, tail: seq<Task>)
    requires |s| > 0 && Precedes(s[0], x)
    requires multiset(tail) == multiset(s[1..]) + multiset{x}
    requires Sorted(s) ==> Sorted(tail)
    ensures Sorted(s) ==> Sorted([s[0]] + tail)
  {
    if Sorted(s) {
      var r := [s[0]] + tail;
      forall i, j | 0 <= i < j < |r|
        ensures !Precedes(r[j], r[i])
      {
        if i == 0 {
          assert r[j] in multiset(tail);
          if r[j] != x {
            assert r[j] in multiset(s[1..]);
            var k :| 0 <= k < |s[1..]| && s[1..][k] == r[j];
            assert s[k + 1] == r[j];
          } else {
            CompareIsTotalPreorder(s[0], x, x);
          }
        } else {
          assert r[i] == tail[i - 1] && r[j] == tail[j - 1];
        }
      }
    }
  }

  lemma InsertAtFront(x: Task, s: seq<Task>)
    requires |s| > 0 && !Precedes(s[0], x)
    ensures Sorted(s) ==> Sorted([x] + s)
  {
    if Sorted(s) {
      var r := [x] + s;
      forall i, j | 0 <= i < j < |r|
        ensures !Precedes(r[j], r[i])
      {
        if i == 0 {
          CompareIsTotalPreorder(x, s[0], s[j - 1]);
          CompareIsTotalPreorder(s[0], x, x);
          CompareIsTotalPreorder(s[j - 1], x, x);
          if j > 1 {
            CompareIsTotalPreorder(s[j - 1], s[0], s[0]);
          }
        } else {
          assert r[i] == s[i - 1] && r[j] == s[j - 1];
        }
      }
    }
  }

  /** Stable insertion sort by `Compare`. */
  function Sort(s: seq<Task>): (r: seq<Task>)
    ensures multiset(r) == multiset(s)
    ensures Sorted(r)
    decreases |s|
  {
    if |s| == 0 then []
    else
      assert s == [s[0]] + s[1..];
      Insert(s[0], Sort(s[1..]))
  }

  /** Filtering by a key peels off the head of a sequence. */
  lemma FilterConsKey(y: Task, rest: seq<Task>, k: Key)
    ensures Seqs.Filter([y] + rest, HasKey(k)) == (if KeyOf(y) == k then [y] else []) + Seqs.Filter(rest, HasKey(k))
  {
    assert ([y] + rest)[1..] == rest;
  }

  /** When the head precedes `x`, the insert keeps the head and the head's key differs from `x`'s. */
  lemma InsertBehindHead(x: Task, s: seq<Task>, k: Key)
    requires |s| > 0 && Precedes(s[0], x)
    ensures Seqs.Filter(Insert(x, s), HasKey(k)) ==
      (if KeyOf(s[0]) == k then [s[0]] else []) + Seqs.Filter(Insert(x, s[1..]), HasKey(k))
    ensures Seqs.Filter(s, HasKey(k)) == (if KeyOf(s[0]) == k then [s[0]] else []) + Seqs.Filter(s[1..], HasKey(k))
    ensures KeyOf(s[0]) != KeyOf(x)
  {
    assert Insert(x, s) == [s[0]] + Insert(x, s[1..]);
    FilterConsKey(s[0], Insert(x, s[1..]), k);
    FilterConsKey(s[0], s[1..], k);
    assert s == [s[0]] + s[1..];
  }

  /** Inserting `x` puts it in front of the entries sharing its key and leaves the other keys' runs alone. */
  lemma {:induction false} InsertFilterKey(x: Task, s: seq<Task>, k: Key)
    ensures Seqs.Filter(Insert(x, s), HasKey(k)) ==
      (if KeyOf(x) == k then [x] else []) + Seqs.Filter(s, HasKey(k))
    decreases |s|
  {
    if |s| == 0 {
      FilterConsKey(x, [], k);
      assert [x] + [] == [x];
    } else if Precedes(s[0], x) {
      InsertFilterKey(x, s[1..], k);
      InsertBehindHead(x, s, k);
    } else {
      assert Insert(x, s) == [x] + s;
      FilterConsKey(x, s, k);
    }
  }

  /** Stability: for every key, the entries with that key appear in the same order as in the input. */
  lemma {:induction false} SortIsStable(s: seq<Task>, k: Key)
    ensures Seqs.Filter(Sort(s), HasKey(k)) == Seqs.Filter(s, HasKey(k))
    decreases |s|
  {
    if |s| > 0 {
      SortIsStable(s[1..], k);
      InsertFilterKey(s[0], Sort(s[1..]), k);
      Seqs.FilterConcat([s[0]], s[1..], HasKey(k));
      assert s == [s[0]] + s[1..];
    }
  }

  /**
   * A sorted sequence is determined by its per-key runs: two sorted sequences
   * whose entries with each key agree are equal. Together with `SortIsStable`
   * this makes `Sort` the one stable sort by `Compare`.
   */
  lemma {:induction false} SortedUnique(a: seq<Task>, b: seq<Task>)
    requires Sorted(a) && Sorted(b)
    requires forall k :: Seqs.Filter(a, HasKey(k)) == Seqs.Filter(b, HasKey(k))
    ensures a == b
    decreases |a| + |b|
  {
    if |a| == 0 && |b| == 0 {
    } else if |a| == 0 {
      NonEmptyRun(b);
      assert false;
    } else if |b| == 0 {
      NonEmptyRun(a);
      assert false;
    } else {
      SortedHeadsAgree(a, b);
      forall k
        ensures Seqs.Filter(a[1..], HasKey(k)) == Seqs.Filter(b[1..], HasKey(k))
      {
        RunOfTail(a, k);
        RunOfTail(b, k);
        var h := if KeyOf(a[0]) == k then [a[0]] else [];
        assert Seqs.Filter(a, HasKey(k)) == Seqs.Filter(b, HasKey(k));
        assert Seqs.Filter(a[1..], HasKey(k)) == Seqs.Filter(a, HasKey(k))[|h|..];
        assert Seqs.Filter(b[1..], HasKey(k)) == Seqs.Filter(b, HasKey(k))[|h|..];
      }
      SortedUnique(a[1..], b[1..]);
      assert a == [a[0]] + a[1..] && b == [b[0]] + b[1..];
    }
  }

  /** The run of a sequence's first key starts with its first element. */
  lemma NonEmptyRun(s: seq<Task>)
    requires |s| > 0
    ensures Seqs.Filter(s, HasKey(KeyOf(s[0]))) == [s[0]] + Seqs.Filter(s[1..], HasKey(KeyOf(s[0])))
  {
    assert HasKey(KeyOf(s[0]))(s[0]);
  }

  /** Dropping the first element drops it from its own run only. */
  lemma RunOfTail(s: seq<Task>, k: Key)
    requires |s| > 0
    ensures Seqs.Filter(s, HasKey(k)) == (if KeyOf(s[0]) == k then [s[0]] else []) + Seqs.Filter(s[1..], HasKey(k))
  {
    assert s == [s[0]] + s[1..];
    Seqs.FilterConcat([s[0]], s[1..], HasKey(k));
    Seqs.FilterSingleton(s[0], HasKey(k));
  }

  /** Two sorted sequences with the same runs start with the same element. */
  lemma SortedHeadsAgree(a: seq<Task>, b: seq<Task>)
    requires Sorted(a) && Sorted(b) && |a| > 0 && |b| > 0
    requires forall k :: Seqs.Filter(a, HasKey(k)) == Seqs.Filter(b, HasKey(k))
    ensures a[0] == b[0]
  {
    var ka, kb := KeyOf(a[0]), KeyOf(b[0]);
    NonEmptyRun(a);
    NonEmptyRun(b);
    assert Seqs.Filter(b, HasKey(ka))[0] == a[0];
    assert Seqs.Filter(a, HasKey(kb))[0] == b[0];
    Seqs.FilterMembers(b, HasKey(ka));
    Seqs.FilterMembers(a, HasKey(kb));
    // a[0] occurs in b and b[0] occurs in a, so neither key is below the other.
    assert a[0] in b && b[0] in a;
    var j :| 0 <= j < |b| && b[j] == a[0];
    var i :| 0 <= i < |a| && a[i] == b[0];
    if j > 0 { assert !Precedes(b[j], b[0]); }
    if i > 0 { assert !Precedes(a[i], a[0]); }
    CompareIsTotalPreorder(a[0], b[0], b[0]);
    assert ka == kb;
  }

  /** The visible task list for the active filter and search text. */
  function Project(tasks: seq<Task>, filter: string, query: string): (r: seq<Task>)
    ensures forall i :: 0 <= i < |r| ==> r[i] in tasks && Keeps(filter, query)(r[i])
    ensures forall i :: 0 <= i < |tasks| && Keeps(filter, query)(tasks[i]) ==> tasks[i] in r
    ensures multiset(r) <= multiset(tasks)
    ensures Sorted(r)
  {
    var kept := Seqs.Filter(tasks, Keeps(filter, query));
    Seqs.FilterMembers(tasks, Keeps(filter, query));
    var r := Sort(kept);
    Seqs.PermutationMembers(r, kept);
    r
  }

  /**
   * The projection's order: every incomplete task precedes every completed
   * one, creation times never increase within a group, and tasks sharing a
   * completion flag and creation time keep their order from the list.
   */
  lemma ProjectOrder(tasks: seq<Task>, filter: string, query: string)
    ensures forall i, j :: 0 <= i < j < |Project(tasks, filter, query)| ==>
      var r := Project(tasks, filter, query);
      (r[i].completed ==> r[j].completed) &&
      (r[i].completed == r[j].completed ==> r[i].createdAt >= r[j].createdAt)
    ensures forall k ::
      Seqs.Filter(Project(tasks, filter, query), HasKey(k)) == Seqs.Filter(Seqs.Filter(tasks, Keeps(filter, query)), HasKey(k))
  {
    forall k
      ensures Seqs.Filter(Project(tasks, filter, query), HasKey(k)) ==
        Seqs.Filter(Seqs.Filter(tasks, Keeps(filter, query)), HasKey(k))
    {
      SortIsStable(Seqs.Filter(tasks, Keeps(filter, query)), k);
    }
  }

  /** With an empty search every title matches: "completed" keeps exactly the completed tasks, any other filter keeps all. */
  lemma ProjectEmptySearch(tasks: seq<Task>, filter: string)
    ensures filter == "completed" ==> forall t :: t in Project(tasks, filter, []) <==> t in tasks && t.completed
    ensures filter != "completed" ==> multiset(Project(tasks, filter, [])) == multiset(tasks)
  {
    forall t: Task
      ensures MatchesSearch(t, [])
    {
      Text.IncludesEmpty(Text.Lower(t.title));
    }
    if filter != "completed" {
      Seqs.FilterAll(tasks, Keeps(filter, []));
    }
  }

  /** The "remaining" counter: incomplete tasks in the whole list, whatever the filter and search. */
  function TasksRemaining(tasks: seq<Task>): (n: nat)
    ensures n <= |tasks|
  {
    |Seqs.Filter(tasks, IsIncomplete)|
  }

  /** In a list ordered incomplete-first, the incomplete tasks are exactly the first ones, as many as there are. */
  lemma {:induction false} IncompletePrefix(r: seq<Task>)
    requires forall i, j :: 0 <= i < j < |r| ==> (r[i].completed ==> r[j].completed)
    ensures forall i :: 0 <= i < |r| ==> (!r[i].completed <==> i < |Seqs.Filter(r, IsIncomplete)|)
    decreases |r|
  {
    if |r| > 0 {
      Seqs.FilterConcat([r[0]], r[1..], IsIncomplete);
      assert r == [r[0]] + r[1..];
      if r[0].completed {
        Seqs.FilterNone(r, IsIncomplete);
      } else {
        IncompletePrefix(r[1..]);
        forall i | 0 < i < |r|
          ensures !r[i].completed <==> i < |Seqs.Filter(r, IsIncomplete)|
        {
          assert r[i] == r[1..][i - 1];
        }
      }
    }
  }

  /**
   * The counter agrees with the unfiltered view: in the "all" projection with
   * an empty search, the first `TasksRemaining(tasks)` entries are exactly its
   * incomplete tasks.
   */
  lemma RemainingIsIncompletePrefix(tasks: seq<Task>)
    ensures |Project(tasks, "all", [])| == |tasks|
    ensures forall i :: 0 <= i < |Project(tasks, "all", [])| ==>
      (!Project(tasks, "all", [])[i].completed <==> i < TasksRemaining(tasks))
  {
    var r := Project(tasks, "all", []);
    ProjectEmptySearch(tasks, "all");
    assert |r| == |multiset(r)| == |multiset(tasks)| == |tasks|;
    ProjectOrder(tasks, "all", []);
    IncompletePrefix(r);
    Seqs.FilterLengthPermutation(r, tasks, IsIncomplete);
  }
}

=== FILE: seqs.dfy ===
/** Order-preserving filtering of sequences, the `Array.prototype.filter` of the client. */
module Seqs {

  /** The elements of `s` satisfying `p`, in their original order. */
  function Filter<T>(s: seq<T>, p: T -> bool): (r: seq<T>)
    ensures |r| <= |s|
    decreases |s|
  {
    if |s| == 0 then []
    else (if p(s[0]) then [s[0]] else []) + Filter(s[1..], p)
  }

  /** The filter keeps exactly the elements that pass `p`, each no more often than in `s`. */
  lemma {:induction false} FilterMembers<T>(s: seq<T>, p: T -> bool)
    ensures forall i :: 0 <= i < |Filter(s, p)| ==> Filter(s, p)[i] in s && p(Filter(s, p)[i])
    ensures forall i :: 0 <= i < |s| && p(s[i]) ==> s[i] in Filter(s, p)
    ensures multiset(Filter(s, p)) <= multiset(s)
    decreases |s|
  {
    if |s| > 0 {
      FilterMembers(s[1..], p);
      assert s == [s[0]] + s[1..];
      forall i | 0 < i < |s| && p(s[i])
        ensures s[i] in Filter(s, p)
      {
        assert s[i] == s[1..][i - 1];
      }
    }
  }

  /** Filtering distributes over concatenation, so it keeps relative order. */
  lemma {:induction false} FilterConcat<T>(a: seq<T>, b: seq<T>, p: T -> bool)
    ensures Filter(a + b, p) == Filter(a, p) + Filter(b, p)
    decreases |a|
  {
    if |a| == 0 {
      assert a + b == b;
    } else {
      var h := if p(a[0]) then [a[0]] else [];
      assert (a + b)[0] == a[0];
      assert (a + b)[1..] == a[1..] + b;
      assert Filter(a + b, p) == h + Filter(a[1..] + b, p);
      FilterConcat(a[1..], b, p);
      assert Filter(a, p) == h + Filter(a[1..], p);
      assert h + (Filter(a[1..], p) + Filter(b, p)) == (h + Filter(a[1..], p)) + Filter(b, p);
    }
  }

  /** A sequence all of whose elements pass `p` is its own filter. */
  lemma {:induction false} FilterAll<T>(s: seq<T>, p: T -> bool)
    requires forall i :: 0 <= i < |s| ==> p(s[i])
    ensures Filter(s, p) == s
    decreases |s|
  {
    if |s| > 0 {
      FilterAll(s[1..], p);
    }
  }

  /** A filter that rejects every element yields the empty sequence. */
  lemma {:induction false} FilterNone<T>(s: seq<T>, p: T -> bool)
    requires forall i :: 0 <= i < |s| ==> !p(s[i])
    ensures Filter(s, p) == []
    decreases |s|
  {
    if |s| > 0 {
      FilterNone(s[1..], p);
    }
  }

  /** A relation that holds of every ordered pair of `s` holds of every ordered pair of a filter of `s`. */
  lemma {:induction false} FilterPairwise<T>(s: seq<T>, p: T -> bool, rel: (T, T) -> bool)
    requires forall i, j :: 0 <= i < j < |s| ==> rel(s[i], s[j])
    ensures forall i, j :: 0 <= i < j < |Filter(s, p)| ==> rel(Filter(s, p)[i], Filter(s, p)[j])
    decreases |s|
  {
    if |s| > 0 {
      FilterPairwise(s[1..], p, rel);
      var r := Filter(s, p);
      var tail := Filter(s[1..], p);
      if p(s[0]) {
        assert r == [s[0]] + tail;
        forall i, j | 0 <= i < j < |r|
          ensures rel(r[i], r[j])
        {
          if i == 0 {
            FilterMembers(s[1..], p);
            assert r[j] == tail[j - 1];
            assert r[j] in s[1..];
            var k :| 0 <= k < |s[1..]| && s[1..][k] == r[j];
            assert s[k + 1] == r[j];
          } else {
            assert r[i] == tail[i - 1] && r[j] == tail[j - 1];
          }
        }
      } else {
        assert r == tail;
      }
    }
  }

  lemma FilterSingleton<T>(x: T, p: T -> bool)
    ensures Filter([x], p) == if p(x) then [x] else []
  {
    assert [x][1..] == [];
  }

  /** Taking one element out of the middle of a sequence. */
  lemma FilterRemoveAt<T>(b: seq<T>, j: int, p: T -> bool)
    requires 0 <= j < |b|
    ensures |Filter(b, p)| == |Filter([b[j]], p)| + |Filter(b[..j] + b[j + 1..], p)|
  {
    assert b == b[..j] + ([b[j]] + b[j + 1..]);
    FilterConcat(b[..j], [b[j]] + b[j + 1..], p);
    FilterConcat([b[j]], b[j + 1..], p);
    FilterConcat(b[..j], b[j + 1..], p);
  }

  /** Permuted sequences have filters of equal length. */
  lemma {:induction false} FilterLengthPermutation<T>(a: seq<T>, b: seq<T>, p: T -> bool)
    requires multiset(a) == multiset(b)
    ensures |Filter(a, p)| == |Filter(b, p)|
    decreases |a|
  {
    if |a| == 0 {
      assert |b| == |multiset(b)| == 0;
    } else {
      assert a[0] in multiset(b);
      var j :| 0 <= j < |b| && b[j] == a[0];
      var rest := b[..j] + b[j + 1..];
      assert b == b[..j] + [b[j]] + b[j + 1..];
      assert a == [a[0]] + a[1..];
      assert multiset(b) == multiset(b[..j]) + multiset{b[j]} + multiset(b[j + 1..]);
      assert multiset(rest) == multiset(b[..j]) + multiset(b[j + 1..]);
      assert multiset(a) == multiset{a[0]} + multiset(a[1..]);
      assert multiset(a[1..]) == multiset(a) - multiset{a[0]};
      assert multiset(rest) == multiset(b) - multiset{b[j]};
      FilterLengthPermutation(a[1..], rest, p);
      FilterRemoveAt(b, j, p);
      FilterRemoveAt(a, 0, p);
      assert a[..0] + a[1..] == a[1..];
    }
  }

  /** Sequences with the same multiset have the same members. */
  lemma PermutationMembers<T>(a: seq<T>, b: seq<T>)
    requires multiset(a) == multiset(b)
    ensures forall i :: 0 <= i < |a| ==> a[i] in b
    ensures forall i :: 0 <= i < |b| ==> b[i] in a
  {
    forall i | 0 <= i < |a| ensures a[i] in b {
      assert a[i] in multiset(a);
    }
    forall i | 0 <= i < |b| ensures b[i] in a {
      assert b[i] in multiset(b);
    }
  }
}

=== FILE: signup.dfy ===
/**
 * The sign-up page's submit handler. The error is cleared first; then the
 * password confirmation is checked, then the password length (JavaScript
 * `length`, in UTF-16 code units); only a form passing both reaches `signup`,
 * without the confirmation. A rejection shows its message, or a default
 * text when it has none; `loading` is reset in every case.
 */
module Signup {
  import opened Wrappers
  import opened Domain
  import Text

  datatype Form = Form(username: string, email: string, password: string, confirmPassword: string)

  datatype State = State(form: Form, error: string, loading: bool, navigatedTo: Option<string>)

  /** The payload `signup` receives. */
  datatype SignupData = SignupData(username: string, email: string, password: string)

  const MismatchError: string := "Passwords do not match"
  const LengthError: string := "Password must be at least 6 characters"
  const DefaultError: string := "Signup failed. Please try again."
  const MinPasswordLength: nat := 6

  predicate PasswordsMatch(f: Form) {
    f.password == f.confirmPassword
  }

  predicate LongEnough(f: Form) {
    Text.Utf16Length(f.password) >= MinPasswordLength
  }

  /** The handler up to its await. */
  function Submit(s: State): (r: (State, Option<SignupData>))
    ensures !PasswordsMatch(s.form) ==> r == (s.(error := MismatchError), None)
    ensures PasswordsMatch(s.form) && !LongEnough(s.form) ==> r == (s.(error := LengthError), None)
    ensures PasswordsMatch(s.form) && LongEnough(s.form) ==>
      r.0 == s.(error := [], loading := true) && r.1 == Some(SignupData(s.form.username, s.form.email, s.form.password))
  {
    var cleared := s.(error := []);
    if cleared.form.password != cleared.form.confirmPassword then (cleared.(error := MismatchError), None)
    else if Text.Utf16Length(cleared.form.password) < MinPasswordLength then (cleared.(error := LengthError), None)
    else (cleared.(loading := true), Some(SignupData(s.form.username, s.form.email, s.form.password)))
  }

  /** The handler after `signup` settles: success navigates to the dashboard, failure shows the error. */
  function Settle(s: State, outcome: Outcome<()>): (r: State)
    ensures !r.loading
    ensures outcome.Success? ==> r.navigatedTo == Some("/dashboard") && r.error == s.error
    ensures outcome.Failure? ==> r.navigatedTo == s.navigatedTo
    ensures outcome.Failure? && outcome.error.message != [] ==> r.error == outcome.error.message
    ensures outcome.Failure? && outcome.error.message == [] ==> r.error == DefaultError
  {
    match outcome
    case Success(_) => s.(loading := false, navigatedTo := Some("/dashboard"))
    case Failure(e) => s.(loading := false, error := if e.message != [] then e.message else DefaultError)
  }

  /**
   * Validation order and reach: `signup` is called exactly for forms whose
   * passwords match and are long enough; a mismatch is reported even when the
   * password is also too short; and a refused submit shows an error without
   * starting to load.
   */
  lemma ValidationOrder(s: State)
    ensures Submit(s).1.Some? <==> PasswordsMatch(s.form) && LongEnough(s.form)
    ensures !PasswordsMatch(s.form) ==> Submit(s).0.error == MismatchError
    ensures Submit(s).1.None? ==> Submit(s).0.loading == s.loading && Submit(s).0.error != []
  {
  }

  /** A five-character password is refused and a six-character one accepted; an astral character counts twice. */
  lemma LengthBoundary(u: string, e: string)
    ensures Submit(State(Form(u, e, "12345", "12345"), [], false, None)).0.error == LengthError
    ensures Submit(State(Form(u, e, "123456", "123456"), [], false, None)).1.Some?
    ensures Submit(State(Form(u, e, "1234\U{1F600}", "1234\U{1F600}"), [], false, None)).1.Some?
  {
    assert Text.Utf16Length("12345") == 5;
    assert Text.Utf16Length("123456") == 6;
    assert Text.Utf16Length("1234\U{1F600}") == 6;
  }
}

=== FILE: sync.dfy ===
/**
 * The dashboard and the server together. The dashboard never reloads after
 * a change; it patches its list with the server's answer. These lemmas show
 * that patching keeps the list an exact listing of the user's tasks on the
 * server, as a fresh load would return it, provided the server clock does
 * not run backwards.
 */
module Sync {
  import opened Wrappers
  import opened Domain
  import Seqs
  import TaskStore
  import TasksRouter
  import Dashboard

  /** The list agrees with the table: exactly the user's rows, each once, newest first. */
  predicate InSync(st: TaskStore.Store, userId: int, ts: seq<Task>) {
    TaskStore.IsListing(st, userId, None, ts)
  }

  /** A task created by the server at `now` goes in front of a list of older tasks. */
  lemma AddInSync(st: TaskStore.Store, ts: seq<Task>, user: Dashboard.User, loading: bool, title: string, description: string, now: int)
    requires TaskStore.Valid(st) && InSync(st, user.id, ts)
    requires forall id :: id in st.tasks ==> st.tasks[id].createdAt <= now
    ensures var reply := TasksRouter.CreateTask(st, true, user.id, TasksRouter.TaskCreate(title, Some(description)), now);
      var step := Dashboard.AddTask(Dashboard.State(ts, loading), Some(user), title, description, Success(reply.result.value));
      InSync(reply.store, user.id, step.state.tasks)
  {
    var reply := TasksRouter.CreateTask(st, true, user.id, TasksRouter.TaskCreate(title, Some(description)), now);
    var t := reply.result.value;
    var next := [t] + ts;
    assert Dashboard.AddTask(Dashboard.State(ts, loading), Some(user), title, description, Success(t)).state.tasks == next;
    forall i | 0 <= i < |next|
      ensures next[i].id in reply.store.tasks && reply.store.tasks[next[i].id] == next[i] && TaskStore.Selected(next[i], user.id, None)
    {
      if i > 0 {
        assert next[i] == ts[i - 1];
      }
    }
    forall id | id in reply.store.tasks && TaskStore.Selected(reply.store.tasks[id], user.id, None)
      ensures id in IdsOf(next)
    {
      if id == t.id {
        assert next[0].id == id;
      } else {
        var j :| 0 <= j < |ts| && ts[j].id == id;
        assert next[j + 1].id == id;
      }
    }
    assert TaskStore.DistinctIds(next) by {
      forall i, j | 0 <= i < j < |next|
        ensures next[i].id != next[j].id
      {
        assert next[j] == ts[j - 1];
        if i > 0 {
          assert next[i] == ts[i - 1];
        }
      }
    }
    assert TaskStore.NewestFirst(next) by {
      forall i, j | 0 <= i < j < |next|
        ensures next[i].createdAt >= next[j].createdAt
      {
        assert next[j] == ts[j - 1];
        if i > 0 {
          assert next[i] == ts[i - 1];
        }
      }
    }
  }

  /** Swapping in a server row that keeps its id, owner and creation time keeps the list in sync. */
  lemma ReplaceInSync(st: TaskStore.Store, st': TaskStore.Store, ts: seq<Task>, userId: int, t: Task)
    requires InSync(st, userId, ts) && TaskStore.Owned(st, userId, t.id)
    requires t.userId == userId && t.createdAt == st.tasks[t.id].createdAt && st.tasks[t.id].id == t.id
    requires st'.tasks == st.tasks[t.id := t]
    ensures InSync(st', userId, Dashboard.ReplaceById(ts, t.id, t))
  {
    var next := Dashboard.ReplaceById(ts, t.id, t);
    Dashboard.ReplaceKeepsIds(ts, t.id, t);
    forall i | 0 <= i < |next|
      ensures next[i].id in st'.tasks && st'.tasks[next[i].id] == next[i] && TaskStore.Selected(next[i], userId, None)
    {
    }
    assert TaskStore.NewestFirst(next) by {
      forall i, j | 0 <= i < j < |next|
        ensures next[i].createdAt >= next[j].createdAt
      {
        assert next[i].createdAt == ts[i].createdAt;
        assert next[j].createdAt == ts[j].createdAt;
      }
    }
  }

  /** Toggling on the server and swapping in its answer keeps the list in sync. */
  lemma ToggleInSync(st: TaskStore.Store, ts: seq<Task>, user: Dashboard.User, loading: bool, taskId: int, now: int)
    requires TaskStore.Valid(st) && InSync(st, user.id, ts) && TaskStore.Owned(st, user.id, taskId)
    ensures var reply := TasksRouter.ToggleTask(st, true, user.id, taskId, now);
      var step := Dashboard.ToggleCompleteTask(Dashboard.State(ts, loading), Some(user), taskId, Success(reply.result.value));
      InSync(reply.store, user.id, step.state.tasks)
  {
    var reply := TasksRouter.ToggleTask(st, true, user.id, taskId, now);
    ReplaceInSync(st, reply.store, ts, user.id, reply.result.value);
  }

  /** Saving an edit on the server and swapping in its answer keeps the list in sync. */
  lemma EditInSync(st: TaskStore.Store, ts: seq<Task>, user: Dashboard.User, loading: bool, taskId: int, title: string, description: string, now: int)
    requires TaskStore.Valid(st) && InSync(st, user.id, ts) && TaskStore.Owned(st, user.id, taskId)
    ensures var reply := TasksRouter.UpdateTask(st, true, user.id, taskId, TaskStore.TaskUpdate(Some(title), Some(description), None), now);
      var step := Dashboard.EditTaskSave(Dashboard.State(ts, loading), Some(user), taskId, title, description, Success(reply.result.value));
      InSync(reply.store, user.id, step.state.tasks)
  {
    var reply := TasksRouter.UpdateTask(st, true, user.id, taskId, TaskStore.TaskUpdate(Some(title), Some(description), None), now);
    ReplaceInSync(st, reply.store, ts, user.id, reply.result.value);
  }

  /** Filtering keeps the order of what remains, so distinct ids and newest-first survive. */
  lemma RemoveKeepsOrder(ts: seq<Task>, taskId: int)
    requires TaskStore.DistinctIds(ts) && TaskStore.NewestFirst(ts)
    ensures TaskStore.DistinctIds(Dashboard.RemoveById(ts, taskId)) && TaskStore.NewestFirst(Dashboard.RemoveById(ts, taskId))
  {
    Seqs.FilterPairwise(ts, Dashboard.HasOtherId(taskId), (a: Task, b: Task) => a.id != b.id);
    Seqs.FilterPairwise(ts, Dashboard.HasOtherId(taskId), (a: Task, b: Task) => a.createdAt >= b.createdAt);
  }

  /** Filtering out an id the table no longer holds keeps the list in sync. */
  lemma RemoveInSync(st: TaskStore.Store, st': TaskStore.Store, ts: seq<Task>, userId: int, taskId: int)
    requires InSync(st, userId, ts)
    requires st'.tasks == st.tasks - {taskId}
    ensures InSync(st', userId, Dashboard.RemoveById(ts, taskId))
  {
    var next := Dashboard.RemoveById(ts, taskId);
    RemoveKeepsOrder(ts, taskId);
    RemoveKeepsRows(st, st', ts, userId, taskId);
    forall id | id in st'.tasks && TaskStore.Selected(st'.tasks[id], userId, None)
      ensures id in IdsOf(next)
    {
      var j :| 0 <= j < |ts| && ts[j].id == id;
      var k :| 0 <= k < |next| && next[k] == ts[j];
    }
  }

  lemma RemoveKeepsRows(st: TaskStore.Store, st': TaskStore.Store, ts: seq<Task>, userId: int, taskId: int)
    requires forall i :: 0 <= i < |ts| ==> ts[i].id in st.tasks && st.tasks[ts[i].id] == ts[i] && TaskStore.Selected(ts[i], userId, None)
    requires st'.tasks == st.tasks - {taskId}
    ensures var next := Dashboard.RemoveById(ts, taskId);
      forall i :: 0 <= i < |next| ==> next[i].id in st'.tasks && st'.tasks[next[i].id] == next[i] && TaskStore.Selected(next[i], userId, None)
  {
    var next := Dashboard.RemoveById(ts, taskId);
    forall i | 0 <= i < |next|
      ensures next[i].id in st'.tasks && st'.tasks[next[i].id] == next[i] && TaskStore.Selected(next[i], userId, None)
    {
      var j :| 0 <= j < |ts| && ts[j] == next[i];
    }
  }

  /** Deleting on the server and filtering the id out keeps the list in sync. */
  lemma DeleteInSync(st: TaskStore.Store, ts: seq<Task>, user: Dashboard.User, loading: bool, taskId: int)
    requires TaskStore.Valid(st) && InSync(st, user.id, ts) && TaskStore.Owned(st, user.id, taskId)
    ensures var reply := TasksRouter.DeleteTask(st, true, user.id, taskId);
      var step := Dashboard.DeleteTask(Dashboard.State(ts, loading), Some(user), taskId, Success(()));
      InSync(reply.store, user.id, step.state.tasks)
  {
    var reply := TasksRouter.DeleteTask(st, true, user.id, taskId);
    RemoveInSync(st, reply.store, ts, user.id, taskId);
  }

  /**
   * A load: the listing route answers and the dashboard takes its answer. An
   * answered load leaves the list in sync with the table, a refused one keeps
   * the list, and loading ends either way.
   */
  method Load(st: TaskStore.Store, authorized: bool, s: Dashboard.State, user: Dashboard.User, refusal: GatewayError)
    returns (step: Dashboard.Step)
    requires TaskStore.Valid(st)
    ensures step.call == Some(Dashboard.GetAll(user.id)) && !step.state.loading
    ensures authorized ==> InSync(st, user.id, step.state.tasks)
    ensures !authorized ==> step.state.tasks == s.tasks
  {
    var answer := TasksRouter.GetTasks(st, authorized, user.id);
    var outcome: Outcome<seq<Task>> := if answer.Success? then Success(answer.value) else Failure(refusal);
    step := Dashboard.FetchTasks(s, Some(user), outcome);
  }
}

=== FILE: task_input.dfy ===
/**
 * The dashboard's quick-add box. Submitting awaits `onAdd(title, '')`; a
 * blank title or a submit already in flight is ignored. Success clears the
 * title and collapses the box; failure keeps the title and swallows the error.
 */
module TaskInput {
  import opened Wrappers
  import opened Domain
  import Text

  datatype State = State(title: string, loading: bool, expanded: bool)

  const Initial: State := State([], false, false)

  /** The arguments `onAdd` receives: the title as typed and an empty description. */
  datatype AddCall = AddCall(title: string, description: string)

  /** The submit handler up to its await. */
  function Submit(s: State): (r: (State, Option<AddCall>))
    ensures Text.IsBlank(s.title) || s.loading ==> r == (s, None)
    ensures !(Text.IsBlank(s.title) || s.loading) ==> r.0 == s.(loading := true) && r.1 == Some(AddCall(s.title, []))
  {
    if Text.IsBlank(s.title) || s.loading then (s, None)
    else (s.(loading := true), Some(AddCall(s.title, [])))
  }

  /** The submit handler after `onAdd` settles. */
  function Settle(s: State, outcome: Outcome<()>): (r: State)
    ensures !r.loading
    ensures outcome.Success? ==> r.title == [] && !r.expanded
    ensures outcome.Failure? ==> r.title == s.title && r.expanded == s.expanded
  {
    if outcome.Success? then State([], false, false) else s.(loading := false)
  }

  /** Focusing the input expands the box. */
  function Focus(s: State): (r: State)
    ensures r.expanded && r.title == s.title && r.loading == s.loading
  {
    s.(expanded := true)
  }

  /** The Cancel button collapses the box and keeps the title. */
  function Collapse(s: State): (r: State)
    ensures !r.expanded && r.title == s.title && r.loading == s.loading
  {
    s.(expanded := false)
  }

  /** The Create button's `disabled`: the Button component also disables itself while loading. */
  predicate CreateDisabled(s: State): (d: bool)
    ensures d <==> s.loading || Text.AllSpace(Text.JsTrim, s.title)
  {
    s.loading || Text.IsBlank(s.title)
  }

  /**
   * The Create button is enabled exactly when submitting issues a call; while
   * that call is in flight a second submit issues none; and a failed call
   * returns the box to exactly the state it was submitted from.
   */
  lemma SubmitGuards(s: State, e: GatewayError)
    ensures !CreateDisabled(s) <==> Submit(s).1.Some?
    ensures Submit(s).1.Some? ==> Submit(Submit(s).0).1.None?
    ensures Submit(s).1.Some? ==> Settle(Submit(s).0, Failure(e)) == s
  {
  }
}

=== FILE: task_store.dfy ===
/**
 * The server's task table as a map from id to task, with the operations the
 * task routes and the chatbot's tools share: insertion with a fresh id,
 * owner-scoped lookup, partial update, toggle, removal, and the owner-scoped
 * listing ordered by `created_at` descending.
 */
module TaskStore {
  import opened Wrappers
  import opened Domain

  /** The table and the next id the database will assign. */
  datatype Store = Store(tasks: map<int, Task>, nextId: int)

  /** The body of a partial update: `None` leaves the field alone. */
  datatype TaskUpdate = TaskUpdate(title: Option<string>, description: Option<string>, completed: Option<bool>)

  const Empty: Store := Store(map[], 1)

  /** Each entry is filed under its own id, and ids are positive and below `nextId`. */
  ghost predicate Valid(st: Store) {
    st.nextId >= 1 &&
    forall id :: id in st.tasks ==> st.tasks[id].id == id && 1 <= id < st.nextId
  }

  /** The task exists and belongs to the user (the negation of "not task or task.user_id != user_id"). */
  predicate Owned(st: Store, userId: int, taskId: int) {
    taskId in st.tasks && st.tasks[taskId].userId == userId
  }

  /** A new row: not completed, both timestamps from the clock, the next id. */
  function Insert(st: Store, userId: int, title: string, description: Option<string>, now: int): (r: (Store, Task))
    requires Valid(st)
    ensures Valid(r.0)
    ensures r.1.id !in st.tasks && r.1.id == st.nextId
    ensures r.1.userId == userId && r.1.title == title && r.1.description == description
    ensures !r.1.completed && r.1.createdAt == now && r.1.updatedAt == now
    ensures r.0.tasks == st.tasks[r.1.id := r.1]
  {
    var t := Task(st.nextId, userId, title, description, false, now, now);
    (Store(st.tasks[st.nextId := t], st.nextId + 1), t)
  }

  /** The session lookup followed by the ownership test. */
  function Lookup(st: Store, userId: int, taskId: int): (r: Option<Task>)
    ensures r.Some? <==> Owned(st, userId, taskId)
    ensures r.Some? ==> r.value == st.tasks[taskId]
  {
    if Owned(st, userId, taskId) then Some(st.tasks[taskId]) else None
  }

  /** Assigns the fields the update carries and refreshes `updated_at`. */
  function Patch(t: Task, u: TaskUpdate, now: int): (r: Task)
    ensures r.id == t.id && r.userId == t.userId && r.createdAt == t.createdAt && r.updatedAt == now
    ensures r.title == (if u.title.Some? then u.title.value else t.title)
    ensures r.description == (if u.description.Some? then u.description else t.description)
    ensures r.completed == (if u.completed.Some? then u.completed.value else t.completed)
  {
    t.(title := u.title.GetOr(t.title),
       description := if u.description.Some? then u.description else t.description,
       completed := u.completed.GetOr(t.completed),
       updatedAt := now)
  }

  /** Flips `completed` and refreshes `updated_at`. */
  function Flip(t: Task, now: int): (r: Task)
    ensures r.completed == !t.completed && r.updatedAt == now
    ensures r.(completed := t.completed, updatedAt := t.updatedAt) == t
  {
    t.(completed := !t.completed, updatedAt := now)
  }

  /** Writes a changed row back under its id. */
  function Put(st: Store, t: Task): (r: Store)
    requires Valid(st) && t.id in st.tasks
    ensures Valid(r)
    ensures r.tasks.Keys == st.tasks.Keys && r.tasks[t.id] == t
    ensures forall id :: id in st.tasks && id != t.id ==> r.tasks[id] == st.tasks[id]
  {
    st.(tasks := st.tasks[t.id := t])
  }

  /** Deletes one row. */
  function Remove(st: Store, taskId: int): (r: Store)
    requires Valid(st)
    ensures Valid(r)
    ensures r.tasks.Keys == st.tasks.Keys - {taskId}
    ensures forall id :: id in r.tasks ==> r.tasks[id] == st.tasks[id]
  {
    st.(tasks := st.tasks - {taskId})
  }

  /** The `where` clauses of a listing: the owner, and the completion flag when one is given. */
  predicate Selected(t: Task, userId: int, completed: Option<bool>) {
    t.userId == userId && (completed.None? || t.completed == completed.value)
  }

  predicate NewestFirst(ts: seq<Task>) {
    forall i, j :: 0 <= i < j < |ts| ==> ts[i].createdAt >= ts[j].createdAt
  }

  predicate DistinctIds(ts: seq<Task>) {
    forall i, j :: 0 <= i < j < |ts| ==> ts[i].id != ts[j].id
  }

  /**
   * `ts` is a possible answer of the listing query: exactly the selected rows,
   * each once, newest first. The order of rows with equal `created_at` is left
   * to the database.
   */
  predicate IsListing(st: Store, userId: int, completed: Option<bool>, ts: seq<Task>) {
    (forall i :: 0 <= i < |ts| ==> ts[i].id in st.tasks && st.tasks[ts[i].id] == ts[i] && Selected(ts[i], userId, completed)) &&
    (forall id :: id in st.tasks && Selected(st.tasks[id], userId, completed) ==> id in IdsOf(ts)) &&
    DistinctIds(ts) &&
    NewestFirst(ts)
  }

  /** Where a row goes in a newest-first list: after every strictly newer row. */
  function InsertPos(t: Task, ts: seq<Task>): (p: nat)
    requires NewestFirst(ts)
    ensures p <= |ts|
    ensures forall i :: 0 <= i < p ==> ts[i].createdAt > t.createdAt
    ensures forall i :: p <= i < |ts| ==> ts[i].createdAt <= t.createdAt
  {
    if ts == [] || ts[0].createdAt <= t.createdAt then 0 else 1 + InsertPos(t, ts[1..])
  }

  /** Inserts a row into a newest-first list at its place; the rows around it keep their order. */
  function InsertNewest(t: Task, ts: seq<Task>): (r: seq<Task>)
    requires NewestFirst(ts)
    ensures NewestFirst(r)
    ensures |r| == |ts| + 1
    ensures forall i {:trigger r[i]} :: 0 <= i < |r| ==>
      r[i] == (if i < InsertPos(t, ts) then ts[i] else if i == InsertPos(t, ts) then t else ts[i - 1])
  {
    var p := InsertPos(t, ts);
    var r := ts[..p] + [t] + ts[p..];
    assert forall i {:trigger r[i]} :: 0 <= i < |r| ==> r[i] == (if i < p then ts[i] else if i == p then t else ts[i - 1]);
    r
  }

  /** The rows of the inserted list come from the list and the new row, and nothing is lost. */
  lemma InsertNewestRows(t: Task, ts: seq<Task>, next: seq<Task>, p: nat)
    requires p <= |ts| && |next| == |ts| + 1
    requires forall i {:trigger next[i]} :: 0 <= i < |next| ==> next[i] == (if i < p then ts[i] else if i == p then t else ts[i - 1])
    ensures next[p] == t
    ensures forall i :: 0 <= i < |next| && i != p ==> next[i] == ts[if i < p then i else i - 1]
    ensures forall j :: 0 <= j < |ts| ==> ts[j] == next[if j < p then j else j + 1]
  {
    assert next[p] == t;
    forall i | 0 <= i < |next| && i != p
      ensures next[i] == ts[if i < p then i else i - 1]
    {
      assert next[i] == (if i < p then ts[i] else if i == p then t else ts[i - 1]);
    }
    forall j | 0 <= j < |ts|
      ensures ts[j] == next[if j < p then j else j + 1]
    {
      var i := if j < p then j else j + 1;
      assert next[i] == (if i < p then ts[i] else if i == p then t else ts[i - 1]);
    }
  }

  /** Every row of `ts` is a selected row of the table with an id below `k`. */
  predicate RowsBelow(st: Store, userId: int, completed: Option<bool>, ts: seq<Task>, k: int) {
    forall i :: 0 <= i < |ts| ==> ts[i].id in st.tasks && st.tasks[ts[i].id] == ts[i] && Selected(ts[i], userId, completed) && ts[i].id < k
  }

  /** Every selected row of the table with an id below `k` appears in `ts`. */
  predicate CoversBelow(st: Store, userId: int, completed: Option<bool>, ts: seq<Task>, k: int) {
    forall id :: id in st.tasks && Selected(st.tasks[id], userId, completed) && id < k ==> id in IdsOf(ts)
  }

  /** `ts` lists exactly the selected rows with ids below `k`, each once, newest first. */
  predicate ListedBelow(st: Store, userId: int, completed: Option<bool>, ts: seq<Task>, k: int) {
    RowsBelow(st, userId, completed, ts, k) && CoversBelow(st, userId, completed, ts, k) && DistinctIds(ts) && NewestFirst(ts)
  }

  lemma ScanStep(st: Store, userId: int, completed: Option<bool>, ts: seq<Task>, k: int)
    requires Valid(st) && ListedBelow(st, userId, completed, ts, k)
    requires k in st.tasks && Selected(st.tasks[k], userId, completed)
    ensures ListedBelow(st, userId, completed, InsertNewest(st.tasks[k], ts), k + 1)
  {
    var t := st.tasks[k];
    var p := InsertPos(t, ts);
    var next := InsertNewest(t, ts);
    InsertNewestRows(t, ts, next, p);
    StepRows(st, userId, completed, ts, k, next, p);
    StepCovers(st, userId, completed, ts, k, next, p);
    StepDistinct(ts, k, next, p);
  }

  lemma StepRows(st: Store, userId: int, completed: Option<bool>, ts: seq<Task>, k: int, next: seq<Task>, p: nat)
    requires RowsBelow(st, userId, completed, ts, k)
    requires k in st.tasks && st.tasks[k].id == k && Selected(st.tasks[k], userId, completed)
    requires p <= |ts| && |next| == |ts| + 1 && next[p] == st.tasks[k]
    requires forall i :: 0 <= i < |next| && i != p ==> next[i] == ts[if i < p then i else i - 1]
    ensures RowsBelow(st, userId, completed, next, k + 1)
  {
    forall i | 0 <= i < |next|
      ensures next[i].id in st.tasks && st.tasks[next[i].id] == next[i] && Selected(next[i], userId, completed) && next[i].id < k + 1
    {
      if i != p {
        var j := if i < p then i else i - 1;
        assert next[i] == ts[j];
      }
    }
  }

  lemma StepCovers(st: Store, userId: int, completed: Option<bool>, ts: seq<Task>, k: int, next: seq<Task>, p: nat)
    requires CoversBelow(st, userId, completed, ts, k)
    requires k in st.tasks && st.tasks[k].id == k
    requires p <= |ts| && |next| == |ts| + 1 && next[p] == st.tasks[k]
    requires forall j :: 0 <= j < |ts| ==> ts[j] == next[if j < p then j else j + 1]
    ensures CoversBelow(st, userId, completed, next, k + 1)
  {
    forall id | id in st.tasks && Selected(st.tasks[id], userId, completed) && id < k + 1
      ensures id in IdsOf(next)
    {
      if id == k {
        assert next[p].id == id;
      } else {
        var j :| 0 <= j < |ts| && ts[j].id == id;
        assert next[if j < p then j else j + 1].id == id;
      }
    }
  }

  lemma StepDistinct(ts: seq<Task>, k: int, next: seq<Task>, p: nat)
    requires DistinctIds(ts) && forall i :: 0 <= i < |ts| ==> ts[i].id < k
    requires p <= |ts| && |next| == |ts| + 1 && next[p].id == k
    requires forall i :: 0 <= i < |next| && i != p ==> next[i] == ts[if i < p then i else i - 1]
    ensures DistinctIds(next)
  {
    forall i, j | 0 <= i < j < |next|
      ensures next[i].id != next[j].id
    {
      if i != p && j != p {
        assert next[i] == ts[if i < p then i else i - 1];
        assert next[j] == ts[if j < p then j else j - 1];
      } else if i == p {
        assert next[j] == ts[if j < p then j else j - 1];
      } else {
        assert next[i] == ts[if i < p then i else i - 1];
      }
    }
  }

  lemma ScanSkip(st: Store, userId: int, completed: Option<bool>, ts: seq<Task>, k: int)
    requires ListedBelow(st, userId, completed, ts, k)
    requires !(k in st.tasks && Selected(st.tasks[k], userId, completed))
    ensures ListedBelow(st, userId, completed, ts, k + 1)
  {
  }

  /**
   * The listing query as a scan of the table in id order, inserting each
   * selected row newest-first; the contract leaves the order of equal
   * `created_at` values open, as the database does.
   */
  method List(st: Store, userId: int, completed: Option<bool>) returns (ts: seq<Task>)
    requires Valid(st)
    ensures IsListing(st, userId, completed, ts)
  {
    ts := [];
    var k := 1;
    while k < st.nextId
      invariant 1 <= k <= st.nextId
      invariant ListedBelow(st, userId, completed, ts, k)
    {
      if k in st.tasks && Selected(st.tasks[k], userId, completed) {
        ScanStep(st, userId, completed, ts, k);
        ts := InsertNewest(st.tasks[k], ts);
      } else {
        ScanSkip(st, userId, completed, ts, k);
      }
      k := k + 1;
    }
  }
}

=== FILE: tasks_router.dfy ===
/**
 * The task routes under `/api/{user_id}/tasks`. Every route first checks that
 * the caller may act for the path user; a task that is absent or owned by
 * someone else is answered with 404 "Task not found" and the table is left
 * as it was.
 */
module TasksRouter {
  import opened Wrappers
  import opened Domain
  import opened TaskStore

  /** A refused request: the access check's rejection, or an HTTP error with status and detail. */
  datatype ApiError = AccessDenied | HttpError(status: int, detail: string)

  const NotFound: ApiError := HttpError(404, "Task not found")

  /** The body of a create request. */
  datatype TaskCreate = TaskCreate(title: string, description: Option<string>)

  /** The answer of a route together with the table after it. */
  datatype Reply<T> = Reply(store: Store, result: Result<T, ApiError>)

  /** GET `/{user_id}/tasks`: the path user's tasks, newest first. */
  method GetTasks(st: Store, authorized: bool, userId: int) returns (r: Result<seq<Task>, ApiError>)
    requires Valid(st)
    ensures !authorized <==> r == Failure(AccessDenied)
    ensures authorized ==> r.Success?
    ensures r.Success? ==> IsListing(st, userId, None, r.value)
  {
    if !authorized {
      return Failure(AccessDenied);
    }
    var ts := List(st, userId, None);
    return Success(ts);
  }

  /** POST `/{user_id}/tasks`: a new task for the path user from the body. */
  function CreateTask(st: Store, authorized: bool, userId: int, body: TaskCreate, now: int): (r: Reply<Task>)
    requires Valid(st)
    ensures Valid(r.store)
    ensures !authorized ==> r == Reply(st, Failure(AccessDenied))
    ensures authorized ==> r.result.Success?
    ensures r.result.Success? ==>
      var t := r.result.value;
      t.id !in st.tasks && r.store.tasks == st.tasks[t.id := t] &&
      t.userId == userId && t.title == body.title && t.description == body.description &&
      !t.completed && t.createdAt == now && t.updatedAt == now
  {
    if !authorized then Reply(st, Failure(AccessDenied))
    else
      var (st', t) := Insert(st, userId, body.title, body.description, now);
      Reply(st', Success(t))
  }

  /** GET `/{user_id}/tasks/{task_id}`. */
  function GetTask(st: Store, authorized: bool, userId: int, taskId: int): (r: Result<Task, ApiError>)
    ensures !authorized ==> r == Failure(AccessDenied)
    ensures authorized && !Owned(st, userId, taskId) ==> r == Failure(NotFound)
    ensures authorized && Owned(st, userId, taskId) ==> r == Success(st.tasks[taskId])
  {
    if !authorized then Failure(AccessDenied)
    else match Lookup(st, userId, taskId)
      case None => Failure(NotFound)
      case Some(t) => Success(t)
  }

  /** PUT `/{user_id}/tasks/{task_id}`: assigns the fields the body carries. */
  function UpdateTask(st: Store, authorized: bool, userId: int, taskId: int, body: TaskUpdate, now: int): (r: Reply<Task>)
    requires Valid(st)
    ensures Valid(r.store)
    ensures !authorized ==> r == Reply(st, Failure(AccessDenied))
    ensures authorized && !Owned(st, userId, taskId) ==> r == Reply(st, Failure(NotFound))
    ensures authorized && Owned(st, userId, taskId) ==> r.result.Success?
    ensures r.result.Success? ==>
      var old_ := st.tasks[taskId];
      var t := r.result.value;
      t.id == taskId && t.userId == old_.userId && t.createdAt == old_.createdAt && t.updatedAt == now &&
      t.title == (if body.title.Some? then body.title.value else old_.title) &&
      t.description == (if body.description.Some? then body.description else old_.description) &&
      t.completed == (if body.completed.Some? then body.completed.value else old_.completed) &&
      r.store.tasks == st.tasks[taskId := t]
  {
    if !authorized then Reply(st, Failure(AccessDenied))
    else match Lookup(st, userId, taskId)
      case None => Reply(st, Failure(NotFound))
      case Some(t) =>
        var t' := Patch(t, body, now);
        Reply(Put(st, t'), Success(t'))
  }

  /** DELETE `/{user_id}/tasks/{task_id}`. */
  function DeleteTask(st: Store, authorized: bool, userId: int, taskId: int): (r: Reply<()>)
    requires Valid(st)
    ensures Valid(r.store)
    ensures !authorized ==> r == Reply(st, Failure(AccessDenied))
    ensures authorized && !Owned(st, userId, taskId) ==> r == Reply(st, Failure(NotFound))
    ensures authorized && Owned(st, userId, taskId) ==> r.result.Success? && r.store.tasks == st.tasks - {taskId}
  {
    if !authorized then Reply(st, Failure(AccessDenied))
    else match Lookup(st, userId, taskId)
      case None => Reply(st, Failure(NotFound))
      case Some(_) => Reply(Remove(st, taskId), Success(()))
  }

  /** PATCH `/{user_id}/tasks/{task_id}/complete`: flips `completed`. */
  function ToggleTask(st: Store, authorized: bool, userId: int, taskId: int, now: int): (r: Reply<Task>)
    requires Valid(st)
    ensures Valid(r.store)
    ensures !authorized ==> r == Reply(st, Failure(AccessDenied))
    ensures authorized && !Owned(st, userId, taskId) ==> r == Reply(st, Failure(NotFound))
    ensures authorized && Owned(st, userId, taskId) ==> r.result.Success?
    ensures r.result.Success? ==>
      var t := r.result.value;
      t == st.tasks[taskId].(completed := !st.tasks[taskId].completed, updatedAt := now) &&
      r.store.tasks == st.tasks[taskId := t]
  {
    if !authorized then Reply(st, Failure(AccessDenied))
    else match Lookup(st, userId, taskId)
      case None => Reply(st, Failure(NotFound))
      case Some(t) =>
        var t' := Flip(t, now);
        Reply(Put(st, t'), Success(t'))
  }

  /** Toggling twice restores the task except for `updated_at`. */
  lemma ToggleTwice(st: Store, userId: int, taskId: int, now1: int, now2: int)
    requires Valid(st) && Owned(st, userId, taskId)
    ensures var r1 := ToggleTask(st, true, userId, taskId, now1);
      var r2 := ToggleTask(r1.store, true, userId, taskId, now2);
      r2.result.Success? && r2.store.tasks == st.tasks[taskId := st.tasks[taskId].(updatedAt := now2)]
  {
  }

  /** An update with an empty body changes nothing but `updated_at`. */
  lemma EmptyUpdateTouchesOnlyTimestamp(st: Store, userId: int, taskId: int, now: int)
    requires Valid(st) && Owned(st, userId, taskId)
    ensures UpdateTask(st, true, userId, taskId, TaskUpdate(None, None, None), now).result
      == Success(st.tasks[taskId].(updatedAt := now))
  {
  }

  /** Routes never touch another user's tasks: rows of other owners are the same before and after. */
  lemma OtherUsersUntouched(st: Store, authorized: bool, userId: int, taskId: int, body: TaskUpdate, now: int, id: int)
    requires Valid(st) && id in st.tasks && st.tasks[id].userId != userId
    ensures var r := UpdateTask(st, authorized, userId, taskId, body, now); id in r.store.tasks && r.store.tasks[id] == st.tasks[id]
    ensures var r := ToggleTask(st, authorized, userId, taskId, now); id in r.store.tasks && r.store.tasks[id] == st.tasks[id]
    ensures var r := DeleteTask(st, authorized, userId, taskId); id in r.store.tasks && r.store.tasks[id] == st.tasks[id]
  {
  }

  /** A task can be fetched exactly when the listing of the user's tasks shows it, and it is fetched as listed. */
  lemma GetTaskIffListed(st: Store, userId: int, ts: seq<Task>, taskId: int)
    requires IsListing(st, userId, None, ts)
    ensures GetTask(st, true, userId, taskId).Success? <==> taskId in IdsOf(ts)
    ensures forall i :: 0 <= i < |ts| && ts[i].id == taskId ==> GetTask(st, true, userId, taskId) == Success(ts[i])
  {
    if taskId in IdsOf(ts) {
      var i :| 0 <= i < |ts| && ts[i].id == taskId;
      assert Owned(st, userId, taskId);
    }
  }
}

=== FILE: text.dfy ===
/**
 * The string operations the client and the server rely on: whitespace trimming
 * (JavaScript `trim`, Python `strip`), ASCII lower-casing, substring search,
 * comma splitting, decimal rendering and UTF-16 length.
 */
module Text {

  /** Whose whitespace table a trim uses: JavaScript `String.prototype.trim` or Python `str.strip`. */
  datatype Whitespace = JsTrim | PyStrip

  /**
   * Whitespace as each language defines it. Both share the ASCII controls
   * U+0009..U+000D, the space separators and U+2028/U+2029; JavaScript adds
   * U+FEFF, Python adds U+001C..U+001F and U+0085.
   */
  predicate IsSpace(w: Whitespace, c: char) {
    || ('\t' <= c <= '\r')
    || c == ' '
    || c == '\U{A0}'
    || c == '\U{1680}'
    || ('\U{2000}' <= c <= '\U{200A}')
    || c == '\U{2028}'
    || c == '\U{2029}'
    || c == '\U{202F}'
    || c == '\U{205F}'
    || c == '\U{3000}'
    || (w == JsTrim && c == '\U{FEFF}')
    || (w == PyStrip && (('\U{1C}' <= c <= '\U{1F}') || c == '\U{85}'))
  }

  predicate AllSpace(w: Whitespace, s: string) {
    forall i :: 0 <= i < |s| ==> IsSpace(w, s[i])
  }

  /** Drops leading whitespace: the result is the suffix that starts at the first non-space. */
  function TrimStart(w: Whitespace, s: string): (r: string)
    ensures |r| <= |s| && r == s[|s| - |r|..]
    ensures AllSpace(w, s[..|s| - |r|])
    ensures |r| > 0 ==> !IsSpace(w, r[0])
    decreases |s|
  {
    if |s| > 0 && IsSpace(w, s[0]) then
      var r := TrimStart(w, s[1..]);
      assert s[..|s| - |r|] == [s[0]] + s[1..][..|s[1..]| - |r|];
      r
    else s
  }

  /** Drops trailing whitespace: the result is the prefix that ends at the last non-space. */
  function TrimEnd(w: Whitespace, s: string): (r: string)
    ensures |r| <= |s| && r == s[..|r|]
    ensures AllSpace(w, s[|r|..])
    ensures |r| > 0 ==> !IsSpace(w, r[|r| - 1])
    decreases |s|
  {
    if |s| > 0 && IsSpace(w, s[|s| - 1]) then
      var r := TrimEnd(w, s[..|s| - 1]);
      assert s[|r|..] == s[..|s| - 1][|r|..] + [s[|s| - 1]];
      r
    else s
  }

  /**
   * Removes surrounding whitespace: the result is the infix of `s` between a
   * whitespace-only prefix and a whitespace-only suffix, and neither of its
   * ends is whitespace. It is empty exactly when `s` is all whitespace.
   */
  function Trim(w: Whitespace, s: string): (r: string)
    ensures exists i :: TrimAt(w, s, r, i)
    ensures |r| > 0 ==> !IsSpace(w, r[0]) && !IsSpace(w, r[|r| - 1])
    ensures r == [] <==> AllSpace(w, s)
  {
    var a := TrimStart(w, s);
    var r := TrimEnd(w, a);
    TrimPieces(w, s, a, r);
    r
  }

  /** `r` sits in `s` at `i`, with only whitespace before and after it. */
  predicate TrimAt(w: Whitespace, s: string, r: string, i: int) {
    0 <= i <= |s| - |r| && r == s[i..i + |r|] && AllSpace(w, s[..i]) && AllSpace(w, s[i + |r|..])
  }

  /** How the two one-sided trims combine into `Trim`'s contract. */
  lemma TrimPieces(w: Whitespace, s: string, a: string, r: string)
    requires |a| <= |s| && a == s[|s| - |a|..] && AllSpace(w, s[..|s| - |a|])
    requires |a| > 0 ==> !IsSpace(w, a[0])
    requires |r| <= |a| && r == a[..|r|] && AllSpace(w, a[|r|..])
    requires |r| > 0 ==> !IsSpace(w, r[|r| - 1])
    ensures TrimAt(w, s, r, |s| - |a|)
    ensures |r| > 0 ==> !IsSpace(w, r[0]) && !IsSpace(w, r[|r| - 1])
    ensures r == [] <==> AllSpace(w, s)
  {
    var i := |s| - |a|;
    assert a == s[i..];
    assert r == a[..|r|];
    assert s[i..i + |r|] == r;
    assert s[i + |r|..] == a[|r|..];
    assert s == s[..i] + a;
    if r == [] {
      assert |a| == 0 by {
        assert a[|r|..] == a;
      }
      assert s == s[..i];
    } else {
      assert r[0] == a[0] == s[i];
    }
  }

  /** JavaScript `!s.trim()`: the text is empty once surrounding whitespace is removed. */
  predicate IsBlank(s: string) {
    Trim(JsTrim, s) == []
  }

  /** ASCII lower-casing of one character (`toLowerCase` restricted to A..Z). */
  function LowerChar(c: char): char {
    if 'A' <= c <= 'Z' then (c as int + 32) as char else c
  }

  /** No ASCII capital survives, capitals become their small letters, and every other character is kept. */
  function Lower(s: string): (r: string)
    ensures |r| == |s|
    ensures forall i :: 0 <= i < |s| ==> r[i] == LowerChar(s[i])
    ensures forall i :: 0 <= i < |r| ==> !('A' <= r[i] <= 'Z')
    ensures forall i :: 0 <= i < |s| && !('A' <= s[i] <= 'Z') ==> r[i] == s[i]
    ensures forall i :: 0 <= i < |s| && 'A' <= s[i] <= 'Z' ==> 'a' <= r[i] <= 'z' && r[i] as int - s[i] as int == 32
  {
    seq(|s|, i requires 0 <= i < |s| => LowerChar(s[i]))
  }

  /** `needle` occurs in `hay` at position `i`. */
  predicate OccursAt(hay: string, needle: string, i: int) {
    0 <= i <= |hay| - |needle| && hay[i..i + |needle|] == needle
  }

  /** JavaScript `hay.includes(needle)`, scanning left to right. */
  function Includes(hay: string, needle: string): bool
    decreases |hay|
  {
    if |needle| > |hay| then false
    else if hay[..|needle|] == needle then true
    else Includes(hay[1..], needle)
  }

  /** The scan finds `needle` exactly when it occurs at some position of `hay`. */
  lemma {:induction false} IncludesIffOccurs(hay: string, needle: string)
    ensures Includes(hay, needle) <==> exists i :: OccursAt(hay, needle, i)
    decreases |hay|
  {
    if |needle| > |hay| {
    } else if hay[..|needle|] == needle {
      assert OccursAt(hay, needle, 0);
    } else {
      IncludesIffOccurs(hay[1..], needle);
      forall i | OccursAt(hay, needle, i)
        ensures OccursAt(hay[1..], needle, i - 1)
      {
        assert hay[1..][i - 1..i - 1 + |needle|] == hay[i..i + |needle|];
      }
      forall i | OccursAt(hay[1..], needle, i)
        ensures OccursAt(hay, needle, i + 1)
      {
        assert hay[i + 1..i + 1 + |needle|] == hay[1..][i..i + |needle|];
      }
    }
  }

  /** The empty search string is found in every text. */
  lemma IncludesEmpty(hay: string)
    ensures Includes(hay, [])
  {
    assert hay[..0] == [];
  }

  /** Number of occurrences of `c` in `s`. */
  function Count(s: string, c: char): nat {
    if |s| == 0 then 0 else (if s[0] == c then 1 else 0) + Count(s[1..], c)
  }

  /**
   * Python `s.split(sep)` for a one-character separator: one segment per
   * separator plus one, no segment contains the separator, and empty segments
   * are kept.
   */
  function Split(s: string, sep: char): (r: seq<string>)
    ensures |r| == Count(s, sep) + 1
    ensures forall i :: 0 <= i < |r| ==> sep !in r[i]
    decreases |s|
  {
    if |s| == 0 then [[]]
    else
      var rest := Split(s[1..], sep);
      if s[0] == sep then [[]] + rest
      else [[s[0]] + rest[0]] + rest[1..]
  }

  /** Python `sep.join(parts)`. */
  function Join(parts: seq<string>, sep: char): string
    requires |parts| >= 1
    decreases |parts|
  {
    if |parts| == 1 then parts[0] else parts[0] + [sep] + Join(parts[1..], sep)
  }

  /** Joining the segments back with the separator restores the original text. */
  lemma {:induction false} JoinSplit(s: string, sep: char)
    ensures Join(Split(s, sep), sep) == s
    decreases |s|
  {
    if |s| > 0 {
      var rest := Split(s[1..], sep);
      JoinSplit(s[1..], sep);
      if s[0] == sep {
        assert Join(Split(s, sep), sep) == [] + [sep] + Join(rest, sep);
      } else if |rest| == 1 {
        assert Join(Split(s, sep), sep) == [s[0]] + rest[0];
      } else {
        assert Join(rest, sep) == rest[0] + [sep] + Join(rest[1..], sep);
        assert ([[s[0]] + rest[0]] + rest[1..])[1..] == rest[1..];
        assert Join(Split(s, sep), sep) == [s[0]] + rest[0] + [sep] + Join(rest[1..], sep);
      }
    }
  }

  /** Splitting a text whose prefix `x` has no separator extends the first segment by `x`. */
  lemma {:induction false} SplitPrefix(x: string, y: string, sep: char)
    requires sep !in x
    ensures Split(x + y, sep) == [x + Split(y, sep)[0]] + Split(y, sep)[1..]
    decreases |x|
  {
    if |x| == 0 {
      assert x + y == y;
      assert x + Split(y, sep)[0] == Split(y, sep)[0];
      assert Split(y, sep) == [Split(y, sep)[0]] + Split(y, sep)[1..];
    } else {
      assert (x + y)[1..] == x[1..] + y;
      assert x[0] != sep;
      SplitPrefix(x[1..], y, sep);
      assert [x[0]] + (x[1..] + Split(y, sep)[0]) == x + Split(y, sep)[0];
    }
  }

  /** Splitting undoes joining when no segment contains the separator. */
  lemma {:induction false} SplitJoin(parts: seq<string>, sep: char)
    requires |parts| >= 1
    requires forall i :: 0 <= i < |parts| ==> sep !in parts[i]
    ensures Split(Join(parts, sep), sep) == parts
    decreases |parts|
  {
    if |parts| == 1 {
      SplitPrefix(parts[0], [], sep);
      assert parts[0] + [] == parts[0];
    } else {
      SplitJoin(parts[1..], sep);
      var z := Join(parts[1..], sep);
      assert parts[0] + [sep] + z == parts[0] + ([sep] + z);
      assert ([sep] + z)[1..] == z;
      assert Split([sep] + z, sep) == [[]] + Split(z, sep);
      SplitPrefix(parts[0], [sep] + z, sep);
      assert parts[0] + [] == parts[0];
      assert parts == [parts[0]] + parts[1..];
    }
  }

  /** A text with no surrounding whitespace is its own trim. */
  lemma TrimStripped(w: Whitespace, s: string)
    requires |s| > 0 ==> !IsSpace(w, s[0]) && !IsSpace(w, s[|s| - 1])
    ensures Trim(w, s) == s
  {
    assert TrimStart(w, s) == s;
    assert TrimEnd(w, s) == s;
  }

  /** The decimal digit for `d`. */
  function DigitChar(d: nat): char
    requires d < 10
  {
    ('0' as int + d) as char
  }

  predicate IsDigit(c: char) {
    '0' <= c <= '9'
  }

  /** Decimal rendering of a natural number, as Python's `str(n)` and JavaScript's template literals print it. */
  function NatToString(n: nat): (r: string)
    ensures |r| >= 1
    ensures forall i :: 0 <= i < |r| ==> IsDigit(r[i])
    ensures |r| > 1 ==> r[0] != '0'
  {
    if n < 10 then [DigitChar(n)] else NatToString(n / 10) + [DigitChar(n % 10)]
  }

  /** The value of a string of decimal digits. */
  function ParseNat(s: string): nat
    requires forall i :: 0 <= i < |s| ==> IsDigit(s[i])
  {
    if |s| == 0 then 0
    else
      assert IsDigit(s[|s| - 1]);
      ParseNat(s[..|s| - 1]) * 10 + (s[|s| - 1] as int - '0' as int)
  }

  /** Reading back the rendered digits yields the number. */
  lemma {:induction false} ParseNatToString(n: nat)
    ensures ParseNat(NatToString(n)) == n
  {
    if n >= 10 {
      ParseNatToString(n / 10);
      var s := NatToString(n);
      assert s[..|s| - 1] == NatToString(n / 10);
    }
  }

  /** JavaScript `s.length`: characters outside the Basic Multilingual Plane count twice (UTF-16 code units). */
  function Utf16Length(s: string): (r: nat)
    ensures |s| <= r <= 2 * |s|
    ensures r == |s| <==> forall i :: 0 <= i < |s| ==> s[i] as int < 0x1_0000
    ensures r == 2 * |s| <==> forall i :: 0 <= i < |s| ==> s[i] as int >= 0x1_0000
  {
    if |s| == 0 then 0 else (if s[0] as int >= 0x1_0000 then 2 else 1) + Utf16Length(s[1..])
  }
}

=== FILE: wrappers.dfy ===
/** Optional values and success/failure outcomes shared by every module. */
module Wrappers {

  /** A value that may be absent: JavaScript `undefined`/`null`, Python `None`. */
  datatype Option<+T> = None | Some(value: T) {

    /** The held value, or `default` when there is none. */
    function GetOr(default: T): T {
      match this
      case Some(v) => v
      case None => default
    }
  }

  /** The outcome of a call that may fail: a resolved promise or a raised exception. */
  datatype Result<+R, +E> = Success(value: R) | Failure(error: E)
}
